=== FILE: README.md ===
# YCSB-cpp trace driver and CacheLib/RocksDB backends, modelled in Dafny

This project models the core of a YCSB-style benchmark driver. The driver
replays a trace of cache requests against a storage backend. It parses its
command line into properties and decides from them what to run. It gives
each worker thread its operation budget and settings. Each worker reads the
trace one record at a time and calls its store through a measuring wrapper.
The modelled backends are RocksDB and two look-aside caches in front of it
(CacheLib and its Holpaca variant). The Holpaca variant differs only in
`Read` and `Update`; its `Scan`, `Insert` and `Delete` are modelled by
`CacheLib`'s.

Everything is pure functions over immutable values. The parts the program
gets from outside are inputs of the model:

- the trace file's tokens;
- the byte generator;
- the stop flag's readings;
- the store's answers;
- whether a cache allocation or put succeeds;
- the options a RocksDB options file would load;
- whether destroying or opening the engine succeeds.

Modules, one per source concern:

| module | file | models |
|---|---|---|
| `Wrappers` | wrappers.dfy | `Option` and `Result` |
| `Db` | db.dfy | statuses, fields, bytes, properties |
| `CxxString` | cxx_string.dfy | the `std::string` and `<string>` calls the code relies on: `find`, `erase`, `substr`, `stoi`/`stol`/`stoul`, `to_string`, `npos` |
| `RowCodec` | row_codec.dfy | the backend's row serialisation |
| `RocksOptions` | rocks_options.dfy | `RocksDB::GetOptions` |
| `RocksDb` | rocksdb.dfy | the RocksDB backend and its shared reference-counted handle |
| `CacheLib`, `CacheLibHolpaca` | cachelib.dfy, cachelib_holpaca.dfy | the two cache backends |
| `Ops` | ops.dfy | the `Operation` enumeration and its names |
| `DbWrapper` | db_wrapper.dfy | the measuring wrapper |
| `CoreWorkload` | core_workload.dfy | trace parsing, the stop flag, `DoInsert`/`DoTransaction` |
| `Client` | client.dfy | `ClientThread` |
| `Ycsbc` | ycsbc.dfy | `ParseCommandLine`, the status selection, the per-worker settings and `main`'s plan |

Some of the code's behaviour is easy to misread; the model follows the
code:

- **Budgets are not a split of the total.** Each worker's budget is
  `operationcount.<i>`, falling back to `operationcount`, plus one for the
  first `total % n` workers. Nothing is divided. With no per-worker
  override, a positive total and more than one worker, the budgets add up
  to `n * total + total % n`, which is more than the total
  (`Ycsbc.BudgetsExceedTotal`). `%` is C++'s truncating remainder, so a
  negative total gives no worker an extra operation.
- **The end of the trace is fatal, not a sentinel.** Past the last token
  the line read is empty, and `stoi` throws `std::invalid_argument`. The
  worker catches only `utils::Exception`, so the exception leaves the
  thread and is stored in its future. `main` rethrows it from `get()` and
  has no handler, so the process terminates
  (`CoreWorkload.ExhaustedTraceFails`, `Client.ClientThread`).
- **A load-only run launches no workers.** Workers are started only in the
  transaction branch of `main`. With `doload=true` and
  `dotransaction=false`, `main` parses its settings and returns
  (`Ycsbc.RunPlan`).
- **A bad worker setting stops the launch part-way.** `main` starts each
  worker before it parses the next one's settings. When worker j's
  `stol`/`stoi` throws, workers 0 to j-1 are already running (and with
  `rocksdb.destroy=true` their `Init` may already have destroyed the
  database); the exception then ends the process (`Ycsbc.RunPlan`,
  `Ycsbc.RunAborts`).
- **A store's `Init` can fail in two ways.** A `utils::Exception` is caught
  by the worker, which exits with status 1. `RocksDB::Init` parses its
  options with `stoi`, `stol` and `stoul`, and `CacheLib::Init` its cache
  size with `stol`; their standard exceptions escape the worker like a bad
  trace record (`Client.RocksInitFailure`, `Client.ClientThread`).
- **A missing operation count ends the run.** The transaction branch reads
  the total with `props[...]` and no default, so a missing
  `operationcount` makes `main` throw (`Ycsbc.RunPlan`).
- **`Scan` is not a separate "unsupported" outcome.** Both cache backends
  answer `Error` to a scan. The RocksDB backend answers `OK`.
- **Transactions touch no store.** `DoTransaction` only consumes and parses
  a record; its dispatch to the store is commented out. A transaction phase
  therefore reports no measurements.

## Model

| member | source | states |
|---|---|---|
| RowCodec.LittleEndianRoundTrip | cachelib/rocksdb.cc:396-400 | the host-order bytes of a length read back as that length whenever it fits in the width |
| RowCodec.U32RoundTrip | cachelib/rocksdb.cc:396-400 | a length below 2^32 survives its four-byte `uint32_t` prefix |
| RowCodec.EncodeField | cachelib/rocksdb.cc:395-402 | one field occupies eight bytes plus its name and value |
| RowCodec.EncodeLength | cachelib/rocksdb.cc:393-403 | a row's encoding is eight bytes per field plus the payload |
| RowCodec.EncodeAppend | cachelib/rocksdb.cc:393-403 | encoding distributes over concatenation of rows |
| RowCodec.DecodeField | cachelib/rocksdb.cc:437-447 | a decoded field consumes eight bytes plus its name and value, within the data |
| RowCodec.DecodeFieldOfEncoded | cachelib/rocksdb.cc:437-447 | decoding the front of an encoded field gives the field back, with its exact length |
| RowCodec.DecodeEncode | cachelib/rocksdb.cc:393-403 | deserialising a serialised row gives the row back when every name and value is shorter than 2^32 bytes |
| RowCodec.Greedy | cachelib/rocksdb.cc:405-425 | the filtered row has at most as many fields as the requested names and as the row |
| RowCodec.DecodeFilterIsGreedy | cachelib/rocksdb.cc:405-425 | filtering a decodable row is the greedy in-order name match on its decoded fields |
| RowCodec.GreedyNamesArePrefix | cachelib/rocksdb.cc:419-422 | the kept fields' names are a prefix of the requested names |
| RowCodec.GreedyIsSubsequence | cachelib/rocksdb.cc:419-422 | the kept fields are fields of the row, in the row's order |
| RowCodec.GreedyCompleteIffSubseq | cachelib/rocksdb.cc:424 | the filter finds every requested field exactly when the requested names occur in order among the row's names |
| RowCodec.SerializeRow | cachelib/rocksdb.cc:393-403 | serialising appends the row's encoding to the existing data |
| RowCodec.DeserializeRow | cachelib/rocksdb.cc:435-456 | the loop appends the decoded row to the existing fields, and fails where the backend would read past the end |
| RowCodec.FilterStep | cachelib/rocksdb.cc:409-423 | one loop iteration advances within the data and the names, keeping the filtered result invariant |
| RowCodec.DeserializeRowFilter | cachelib/rocksdb.cc:405-433 | the loop appends the greedily filtered row to the existing fields |
| RocksDb.Read | cachelib/rocksdb.cc:262-278 | `NotFound` exactly for an absent key; otherwise `OK` and the stored row, filtered when names are given; a complete filter iff the names are a subsequence of the row's |
| RocksDb.Insert | cachelib/rocksdb.cc:334-345 | `OK`; the key now holds the encoded row; other keys unchanged |
| RocksDb.Delete | cachelib/rocksdb.cc:347-354 | `OK`; the key is gone; other keys unchanged |
| RocksDb.SetFirst | cachelib/rocksdb.cc:313-319 | only the first field with the new field's name takes its value |
| RocksDb.Merge | cachelib/rocksdb.cc:311-321 | a merge keeps the row's length, names and order |
| RocksDb.MergeSpec | cachelib/rocksdb.cc:311-321 | each field of a merged row holds the last update naming it, or its old value |
| RocksDb.MergeUntouched | cachelib/rocksdb.cc:311-321 | a field no update names keeps its value |
| RocksDb.MergeFits | cachelib/rocksdb.cc:311-326 | a merged row of fitting fields still fits the length prefixes |
| RocksDb.AssignFirst | cachelib/rocksdb.cc:313-319 | the inner loop assigns the first field of that name and stops |
| RocksDb.MergeFields | cachelib/rocksdb.cc:311-321 | the nested loops compute the merge |
| RocksDb.Update | cachelib/rocksdb.cc:300-332 | `NotFound` with no change for an absent key; otherwise `OK` and the merged row, names and order unchanged; other keys unchanged |
| RocksDb.ReadAfterInsert | cachelib/rocksdb.cc:334-345 | a read after an insert returns the inserted row; other keys read as before |
| RocksDb.ReadAfterDelete | cachelib/rocksdb.cc:347-354 | a read after a delete finds nothing; other keys read as before |
| RocksDb.ReadAfterUpdate | cachelib/rocksdb.cc:300-332 | a read after an update of a present key returns the merged row |
| RocksDb.WritesKeepWellFormed | cachelib/rocksdb.cc:322-345 | writes of fitting rows keep every stored row decodable |
| RocksDb.Scan | cachelib/rocksdb.cc:280-298 | `OK` with at most `len` rows (none for `len <= 0`), each as a read of the key the iterator visits would deliver |
| RocksDb.OpenEngine | cachelib/rocksdb.cc:370-390 | opens exactly when the options are set up, a requested destroy succeeds and the open succeeds; option errors propagate; the engine opens empty when destroy is set, else on the disk's contents |
| RocksDb.Init | cachelib/rocksdb.cc:356-391 | the count goes up on every call; a call that finds the handle open does nothing else; with no handle, a missing path throws, and otherwise the call succeeds exactly when the engine opens, holding the opened table, and throws the engine's error when it does not |
| RocksDb.Cleanup | cachelib/rocksdb.cc:108-114 | the count goes down; the engine is deleted exactly when the last user leaves |
| RocksDb.CleanupsBalance | cachelib/rocksdb.cc:108-114 | with the engine open, `refs` cleanups delete it and fewer leave it open |
| RocksDb.InitAfterDelete | cachelib/rocksdb.cc:356-362 | a deleted handle is never reopened: `db_` still points at it |
| RocksOptions.CompressionOfIsInverse | cachelib/rocksdb.cc:135-155 | exactly the eight names `no`, `snappy`, `zlib`, `bzip2`, `lz4`, `lz4hc`, `xpress`, `zstd` are accepted, each selecting its own compression |
| RocksOptions.KnobValue | cachelib/rocksdb.cc:157-222 | a knob parsed with `stoi` is a 32-bit value |
| RocksOptions.ApplyKnobs | cachelib/rocksdb.cc:157-222 | fails iff some knob fails to parse; otherwise each option changes only when its value differs from the knob's "leave alone" value |
| RocksOptions.Stored | cachelib/rocksdb.cc:175-200 | an option holds the assigned `int` modulo its type's range (2^32, 2^64 or 2^8), unchanged when it fits |
| RocksOptions.ConfigureRest | cachelib/rocksdb.cc:157-258 | fails iff a knob or `bloom_bits` fails to parse; otherwise each option a knob overrides holds the parsed value as its C++ type keeps it, and the others keep theirs |
| RocksOptions.Configure | cachelib/rocksdb.cc:134-259 | an unknown compression name fails; otherwise compression, knobs (converted to their options' types), switches and presets follow their properties |
| RocksOptions.ConfigureIdempotent | cachelib/rocksdb.cc:134-258 | setting the options up again from the same properties changes nothing |
| RocksOptions.ConfiguredKnobWraps | cachelib/rocksdb.cc:172-200 | an overridden `int` option holds the value; an unsigned one wraps a negative value by 2^64; `compaction_pri` keeps the low byte as a signed `char` |
| RocksOptions.GetOptions | cachelib/rocksdb.cc:116-134 | a named options file decides everything; otherwise the properties do |
| RocksOptions.DefaultKnob | cachelib/rocksdb.cc:157-222 | with no property set, each knob takes its default |
| RocksOptions.DefaultProperties | cachelib/rocksdb.cc:135-222 | with no properties, compression is off, the flush and compaction thread counts become 1 and 3, `max_open_files` becomes -1, and every other knob leaves its option alone |
| CacheLib.Read | cachelib/cachelib.cc:81-102 | `OK` exactly on a hit, which changes nothing; a miss caches the backing row's first value and still reports `NotFound`, or `Error` without caching when allocation fails |
| CacheLib.Scan | cachelib/cachelib.cc:104-111 | always `Error`, nothing changes; the Holpaca scan (cachelib/cachelib-holpaca.cc, lines 106-114) is the same |
| CacheLib.Update | cachelib/cachelib.cc:113-127 | an uncached key gives `NotFound` and no change; a failed allocation gives `Error` and no change (neither reads the backing row); otherwise the cache holds the first value and the result is the backing update's |
| CacheLib.Insert | cachelib/cachelib.cc:129-141 | a failed allocation gives `Error` and no change; otherwise the cache holds the first value and the result is the backing insert's; the Holpaca insert (lines 132-142 of its file) is the same with its put in place of the allocation |
| CacheLib.Delete | cachelib/cachelib.cc:143-146 | only the cache changes; `OK` iff the key was cached; the Holpaca delete (lines 144-148 of its file) is the same |
| CacheLib.OperationsKeepCoherent | cachelib/cachelib.cc:81-146 | every operation keeps the cached keys within the backing store's |
| CacheLib.CachedUpdateSucceeds | cachelib/cachelib.cc:116-126 | on a coherent store, an update of a cached key with room succeeds |
| CacheLib.ReadFillsCache | cachelib/cachelib.cc:84-101 | after a miss that caches the row, the next read of the key hits |
| CacheLib.InsertThenReadHits | cachelib/cachelib.cc:129-141 | after an insert with room, a read of the key hits |
| CacheLib.DeleteThenReadRefills | cachelib/cachelib.cc:143-146 | after a delete the key misses, and the read brings it back from the backing store |
| CacheLibHolpaca.Read | cachelib/cachelib-holpaca.cc:85-104 | `OK` exactly when the cached value is non-empty; a miss puts the backing row's first value, giving `NotFound`, or `Error` when the put fails |
| CacheLibHolpaca.Update | cachelib/cachelib-holpaca.cc:116-130 | `OK` exactly when the put succeeds, whatever the backing update says; a failed put changes nothing and reads no backing row |
| CacheLibHolpaca.AgreesWithCacheLib | cachelib/cachelib-holpaca.cc:85-104 | with no empty cached value, a Holpaca read behaves as a CacheLib read |
| CacheLibHolpaca.UpdateOfAbsentKeyHits | cachelib/cachelib-holpaca.cc:116-130 | an update of a key neither store holds reports `OK`, adds nothing to the backing store, and makes a later read hit |
| CacheLibHolpaca.EmptyValueMisses | cachelib/cachelib-holpaca.cc:90-98 | a cached empty value is a miss that goes to the backing store |
| Ops.Ordinal | core/core_workload.h:31-52 | every operation's ordinal is below `MAXOPTYPE`, except `MAXOPTYPE`'s own |
| Ops.OrdinalLayout | core/core_workload.h:31-52 | ordinals and operations are inverse; PASSED is six after its kind, FAILED twelve; ALL is 18 and `MAXOPTYPE` 19 |
| Ops.NameRoundTrip | core/core_workload.cc:22-41 | each operation's name looks it up again; PASSED and FAILED names are the kind's name with a suffix |
| Ops.NamesDistinct | core/core_workload.cc:22-41 | different operations have different names |
| DbWrapper.KindOf | core/db_wrapper.h:28-123 | no store call is measured as READMODIFYWRITE |
| DbWrapper.Reports | core/db_wrapper.h:28-47 | a call reports three times with its elapsed time: PASSED iff `OK`, else FAILED, then its kind, then ALL |
| DbWrapper.Wrapped | core/db_wrapper.h:26-123 | the store's status comes back unchanged; a measured call adds its three reports to both sinks; the rest add nothing |
| DbWrapper.RunCounts | core/db_wrapper.h:28-123 | over any run: both sinks agree; three reports per call; ALL counts the calls; each kind counts its calls, PASSED the `OK` ones, FAILED the rest |
| DbWrapper.RunShape | core/db_wrapper.h:28-123 | both sinks receive the same reports, three per measured call, one of them ALL |
| DbWrapper.RunKindCounts | core/db_wrapper.h:28-123 | a kind's reports count its calls, and its PASSED reports the `OK` answers |
| DbWrapper.RunFailedCount | core/db_wrapper.h:28-123 | a kind's FAILED reports count its calls not answered `OK` |
| DbWrapper.PassedAtMostCalls | core/db_wrapper.h:28-123 | a kind never passes more calls than it makes; READMODIFYWRITE makes none |
| CoreWorkload.Split | core/core_workload.cc:83-98 | a line always has at least one column |
| CoreWorkload.CutSplit | core/core_workload.cc:84-88 | `substr(0, find)` is the first column, and `erase(0, find + 1)` drops exactly it; with no comma the `npos + 1` wrap erases nothing |
| CoreWorkload.CutStep | core/core_workload.cc:84-98 | after `k` cuts the head is column `k`, the last column repeating once the commas run out |
| CoreWorkload.TokenOp | core/core_workload.cc:100-108 | `get` reads; `set` and `replace` update; `add` inserts; anything else is `MAXOPTYPE` |
| CoreWorkload.RecordOf | core/core_workload.cc:84-108 | a record parses iff columns 2 and 3 parse as `int`; key from column 1, operation from column 5, size from column 2 through `size_t` |
| CoreWorkload.ParseRecordColumns | core/core_workload.cc:79-109 | the find/erase parse of a line is the column reading of its comma split |
| CoreWorkload.SixColumns | core/core_workload.cc:79-109 | a six-column line with numeric columns 2 and 3 yields its key, key size and operation |
| CoreWorkload.EmptyLineFails | core/core_workload.cc:80-90 | the empty line read at the end of the trace throws `invalid_argument` |
| CoreWorkload.Answers | core/core_workload.h:79-83 | each query of the flag gets one answer |
| CoreWorkload.FlagSetOnly | core/core_workload.h:79-83 | once a query reads the flag set, every later one does; with no request, none does |
| CoreWorkload.Init | core/core_workload.cc:52-60 | the table name is `table<suffix>`, else `table`, else `usertable`; the trace is the file `file<suffix>` names, empty when the property is missing or empty or the file cannot be opened (`main` passes the suffix `.<i>`) |
| CoreWorkload.NextLineShifts | core/core_workload.cc:80-81 | after reading a token, the trace seen from the reader is the old one from its second token on (the empty string past the end) |
| CoreWorkload.Advance | core/core_workload.cc:80-81 | after `n` reads the trace is seen from token `n` on |
| CoreWorkload.NextOperation | core/core_workload.cc:79-109 | succeeds iff the next token parses, and consumes exactly that token |
| CoreWorkload.ExhaustedTraceFails | core/core_workload.cc:79-93 | once the trace is exhausted every further operation throws |
| CoreWorkload.BuildValue | core/core_workload.cc:62-68 | the value has exactly the requested size |
| CoreWorkload.DoInsert | core/core_workload.cc:70-77 | succeeds iff the next record parses; then one insert into the workload's table of the record's key, with one unnamed field of key-size random bytes |
| CoreWorkload.DoTransaction | core/core_workload.cc:111-130 | succeeds iff the next record parses, and consumes it |
| Client.FirstStop | core/client.h:45-52 | the first stop-flag check, from `i` on, that reads the flag set, or the end of the budget |
| Client.FirstStopAt | core/client.h:45-52 | a check that reads the flag set, or the end, with none before it, is the first stop |
| Client.LoadEvents | core/client.h:41-44 | the load loop's inserts: one per record, in trace order |
| Client.LoadEventsStep | core/client.h:41-44 | the next record's insert follows the earlier ones |
| Client.RecordStep | core/client.h:41-52 | reading record `n` after the first `n` reads token `n` and advances by one |
| Client.TraceFailsFrom | core/client.h:41-52 | a record that fails to parse spoils every longer run |
| Client.TransactionFails | core/client.h:45-52 | a record that fails to parse before the first stop makes the transaction loop throw |
| Client.Prologue | core/client.h:28-37 | a worker first sets its thread id and initialises its store |
| Client.Epilogue | core/client.h:54-60 | a worker cleans its store up iff asked to |
| Client.LoadStep | core/client.h:41-44 | one load iteration succeeds iff the next record parses, and adds its insert |
| Client.TransactionStep | core/client.h:45-52 | one transaction iteration succeeds iff the next record parses |
| Client.LoadLoop | core/client.h:41-44 | the load loop throws iff one of the first `max(num_ops, 0)` records fails to parse; otherwise it makes their inserts |
| Client.TransactionLoop | core/client.h:45-52 | the transaction loop runs to the first stop or the budget and returns that count, or throws iff a record before it fails to parse |
| Client.RocksInitFailure | cachelib/rocksdb.cc:116-391 | a failed `RocksDB::Init` escapes the worker's handler exactly when an option's `stoi`/`stol`/`stoul` fails, with that parse error; a missing path, an unreadable options file, an unknown compression, a failed destroy and a failed open are `utils::Exception`s |
| Client.ClientThread | core/client.h:23-67 | the thread id and init come first; an init that throws `utils::Exception` exits 1, and one whose numeric setting fails to parse ends the thread with that parse error, which the handler does not catch; a record that fails to parse ends the thread with that `std::invalid_argument`, which the handler does not catch; otherwise it returns the operations done, at most the budget, and cleans up iff asked; with no time limit no stop is seen and a transaction run makes its whole budget |
| CxxString.Find | core/ycsbc.cc:221-222 | `npos` iff the character is absent; otherwise the position of its first occurrence |
| CxxString.Stoi | core/ycsbc.cc:93 | succeeds iff the text starts, after blanks, with an optionally signed integer that fits in 32 bits |
| CxxString.Stol | core/ycsbc.cc:146-150 | succeeds iff the text starts with an integer that fits in 64 bits |
| CxxString.Stoul | cachelib/rocksdb.cc:243-244 | fails iff there is no integer or its magnitude reaches 2^64; a negative value wraps modulo 2^64 |
| CxxString.ToInt32 | cachelib/rocksdb.cc:243 | the conversion to `int` wraps modulo 2^32 and keeps values that fit |
| CxxString.ToSignedChar | cachelib/rocksdb.cc:197-200 | the conversion to a signed `char` wraps modulo 2^8 and keeps values that fit |
| CxxString.ToSizeT | core/core_workload.cc:90 | the conversion to `size_t` wraps modulo 2^64 and keeps values that fit |
| CxxString.ToString | core/ycsbc.cc:147-148 | `to_string` of a count is a non-empty run of digits |
| CxxString.ToStringValue | core/ycsbc.cc:147-148 | the digits `to_string` writes spell the number |
| CxxString.StoiToString | core/ycsbc.cc:147-153 | `stoi` reads back what `to_string` wrote |
| Ycsbc.IndexOfType | core/ycsbc.cc:30-49 | every accepted operation type is one of the operation names |
| Ycsbc.OperationTypesAreNames | core/ycsbc.cc:30-49 | each accepted operation type names an operation other than `MAXOPTYPE` |
| Ycsbc.NamesAreOperationTypes | core/ycsbc.cc:30-49 | every operation name is an accepted operation type |
| Ycsbc.OperationTypeIsNotOption | core/ycsbc.cc:237-238 | no accepted operation type starts with `-` |
| Ycsbc.SetStatuses | core/ycsbc.cc:240 | the listed operations get `status.<NAME>=true`; every other property is kept |
| Ycsbc.StatusList | core/ycsbc.cc:237-248 | the list runs to the end or the next `-` argument; each name must be accepted, else an unknown-operation failure |
| Ycsbc.OptionStep | core/ycsbc.cc:195-253 | per option: a missing value iff it is last; `-p` needs `=` and sets the trimmed key to the trimmed value; `-s` sets `status` and reads its list; anything else is an unknown option |
| Ycsbc.ParseOptions | core/ycsbc.cc:194-254 | the option loop stops at the end or the first non-option argument; every failure is a usage error |
| Ycsbc.ParseCommandLine | core/ycsbc.cc:191-260 | no option, or an argument left over, is a usage error; otherwise the options' properties |
| Ycsbc.FindSeparator | core/ycsbc.cc:221 | the `=` found in `key=value` is the one after the key |
| Ycsbc.StatusListRender | core/ycsbc.cc:237-248 | a rendered status list parses back to its statuses |
| Ycsbc.OptionStepRender | core/ycsbc.cc:195-248 | a rendered option parses back to its effect |
| Ycsbc.ParseOptionsRender | core/ycsbc.cc:194-254 | rendered options parse back to the fold of their effects |
| Ycsbc.CommandLineRoundTrip | core/ycsbc.cc:191-260 | a command line rendered from options parses to their effects; with no option it is a usage error |
| Ycsbc.OperationsForStatus | core/ycsbc.cc:94-100 | exactly the operations whose `status.<NAME>` is present, in increasing enumeration order |
| Ycsbc.TruncRem | core/ycsbc.cc:157 | C++ `%`: the remainder has the dividend's sign and is smaller than the divisor |
| Ycsbc.WorkerAt | core/ycsbc.cc:146-159 | worker `i` parses its count, time limit and delay, each from `<key>.<i>`, else `<key>`, else its default; it gets one more operation iff `i < total % n` |
| Ycsbc.Workers | core/ycsbc.cc:145-164 | one setting per worker, in launch order; the first that fails to parse ends the run |
| Ycsbc.WorkerWithoutOverride | core/ycsbc.cc:146-159 | a worker with no count of its own gets the whole total, plus one if among the first `total % n` |
| Ycsbc.BudgetsFrom | core/ycsbc.cc:145-164 | with no overrides, the budgets from worker `i` on add up to the total per worker plus the extra ones |
| Ycsbc.BudgetsExceedTotal | core/ycsbc.cc:145-164 | with no overrides, a positive total and more than one worker, the budgets add to `n * total + total % n`, more than the total |
| Ycsbc.RunTotal | core/ycsbc.cc:167-171 | the reported sum exists iff every worker returned |
| Ycsbc.RunTotalBounded | core/ycsbc.cc:160-171 | workers that each return at most their budget report a sum between zero and the budgets' sum |
| Ycsbc.RunPlan | core/ycsbc.cc:86-164 | exit 1 iff neither phase is asked for; workers only for the transaction phase; a transaction run without `operationcount` fails; a transaction run whose thread count, interval and total parse launches exactly the workers whose settings all parse; otherwise it launches the workers before the first one whose settings fail to parse, and that parse error ends the run |
| Ycsbc.Started | core/ycsbc.cc:145-163 | a launch loop starts, in order, the values before the first failure, and stops at that failure with its error; it runs to the end exactly when nothing fails |
| Ycsbc.LaunchCompletes | core/ycsbc.cc:145-163 | launching worker by worker runs to the end exactly when every worker's settings parse, and then starts the workers `Workers` lists |
| Ycsbc.RunAborts | core/ycsbc.cc:145-163 | a run that stops part-way has launched, in order, every worker before the first whose settings fail to parse, and ends with that worker's parse error |

## Left out

- Threads and timing are left out: the terminator thread, the sleep after
  load, the timers and the status thread. The stop flag's readings are an
  input to the worker; with no time limit no terminator runs, so they are
  all clear.
- Measurement internals are left out. Histograms, the CDF and status
  messages depend on measurement code that is not part of this model. The
  wrapper's reports are modelled as a sequence.
- The DB factory, measurement creation and the `main` exit paths they guard
  are left out (`exit(1)` for an unknown database or measurements name).
  They depend on registration code that is not part of this model.
- `utils::Trim` is a parameter of the command-line parser, since `utils.h`
  is not part of this model.
- The random byte generator is a parameter (`gen: nat -> byte`).
- `RocksDB::Init` takes DestroyDB and Open as boolean inputs. The loaded
  options file is an input too. Column families are left out.
- The cache's eviction, pools and configuration are left out: the
  `CacheLib::Init` pool setup, `stod` on the pool size and the resizer and
  optimizer. How `CacheLib::Init` fails is an input of the worker
  (`Client.InitFailure`): `Number` for a cache size `stol` cannot parse. Allocation or put success is an input, and a successful write
  never evicts another key.
- The RocksDB iterator's order is an input of `RocksDb.Scan`: the key
  sequence it visits from the seek key.
- Engine failures are left out: exceptions from Get, Put and Delete. The
  model's engine never fails.
- `DoInsert`/`DoTransaction` return values are left out. `DoTransaction`
  returns a comparison against an uninitialised status, and the worker
  ignores both.
- The `std::cout` echo of every trace line is left out.
- The call in `main` passes nine arguments to the eight-parameter
  `ClientThread` (core/ycsbc.cc:160-163 against core/client.h:23-26). The
  model's workers take the settings `main` computes. Loading and cleanup
  are whatever the call would pass.
- The `RocksDb` store reads and writes the whole key space. The `table`
  argument is ignored, as in the code.
- RocksDb.Read: requires the stored row to decode. The backend's decoder
  has no error path and reads past its buffer on a malformed row.
- RowCodec.DeserializeRowFilter: the debug `assert` that every requested
  name was found is not modelled. Release behaviour is modelled (missing
  names are skipped), and `GreedyCompleteIffSubseq` says when the assert
  would hold.
- RocksDb.Update: requires the stored row to decode, as `RocksDb.Read`
  does. The debug `assert(found)` is not modelled. An update naming a
  field the row lacks changes nothing for that field.
- CacheLib.Read: requires a miss that finds the key to deliver at least one
  field, since `front()` of an empty result is undefined. The caller's
  result vector is taken to be empty, as every caller in the driver passes
  a fresh one.
- CacheLibHolpaca.Read: requires, as `CacheLib.Read` does, a miss that
  finds the key to deliver at least one field (`front()` of an empty
  result is undefined), and takes the caller's result vector to be empty.
- CacheLib.Update: requires a non-empty field list (`values.front()`);
  likewise `CacheLib.Insert` and the Holpaca writes. The updates also
  require the stored row to decode, but only on the path that reaches the
  backing update, as `RocksDb.Update` does.
- RocksOptions.Stored: `char` is taken to be signed, as on x86-64, for
  the `static_cast` of `compaction_pri` to its `char`-based enumeration.
- CoreWorkload.DoInsert: a negative key size becomes 2^64 less its
  magnitude through `size_t`. The source's `BuildValue` then throws
  (`std::bad_alloc` or `std::length_error`) while generating the value;
  the model builds a value of that length, since memory limits are not
  modelled.
- RocksDb.Init: the reference count is an unbounded integer. The `int`
  wrap-around after 2^31 initialisations is not modelled.
- Client.ClientThread: the `ops` counter is unbounded. A budget of 2^63
  is reachable (see `Ycsbc.WorkerAt`), and the wrap of `long` it would
  cause is not modelled.
- Ycsbc.WorkerAt: `thread_ops++` can overflow. With two workers and
  `operationcount=9223372036854775807`, worker 0 holds 2^63 - 1 and gets
  one more. That signed overflow is undefined in C++; the model gives the
  budget 2^63 and does not model a wrap.
- Ycsbc.RunTotal: the `long` sum is unbounded, so its overflow past 2^63 is
  not modelled.
- Ycsbc.ParseCommandLine: arguments are taken to hold no NUL character,
  which C strings cannot carry. Usage errors are `Failure` values rather
  than `exit(0)`, and the usage text is not modelled.
- Ycsbc.RunPlan: a missing `operationcount` is a failure of the run. The
  kind of exception `props[...]` throws for a missing key depends on
  `utils/properties.h`, which is not part of this model.
- Ycsbc.RunPlan: an aborted run lists the workers it launched. How far
  they get before the exception terminates the process is a race, and it
  is not modelled.
- Ycsbc.RunPlan: the status flag and interval only feed the status thread.
  The interval is parsed, as `main` does, and then not used.
- The experiment scripts (Python) are left out. They orchestrate and plot
  experiments; they are not part of the driver.

=== FILE: cachelib.dfy ===
/** The CacheLib backend: a look-aside cache in front of the RocksDB
    backend. The cache keeps one value per key (the first field's value of
    the row that brought the key in). A read hit is answered from the cache
    alone; a read miss goes to the backing store and caches what it finds,
    but still reports `NotFound`. Writes go to both, deletes to the cache
    only. Whether the cache finds room for a new value is the `allocOk`
    input; eviction is not modelled. */
module CacheLib {
  import opened Wrappers
  import opened Db
  import RocksDb

  /** The cache and the backing store behind it. */
  datatype Store = Store(cache: map<Key, Bytes>, backing: RocksDb.Table)

  /** What a read hands back: its status, the row left in the caller's
      result vector, and the store afterwards. */
  datatype Reply = Reply(status: Status, row: seq<Field>, store: Store)

  /** Every cached key is also in the backing store. */
  predicate Coherent(s: Store)
  {
    s.cache.Keys <= s.backing.Keys
  }

  /** A read is defined: a hit never looks at the backing store; on a miss
      the backing row decodes and, when the key is there, delivers at least
      one field (the first one is what gets cached; taking the first of
      none is undefined in the backend). */
  predicate ReadDefined(s: Store, key: Key, fields: Option<seq<Bytes>>)
  {
    key in s.cache
    || (RocksDb.Readable(s.backing, key)
        && (key in s.backing ==> |RocksDb.Read(s.backing, key, fields).row| > 0))
  }

  /** `Read`: `OK` exactly on a hit, which changes nothing and delivers no
      row. A miss reads the backing store, leaves its row in the result and
      caches its first value; it reports `NotFound` even then, and `Error`
      when the cache has no room (caching nothing). */
  function Read(s: Store, key: Key, fields: Option<seq<Bytes>>, allocOk: bool): (r: Reply)
    requires ReadDefined(s, key, fields)
    ensures r.status == OK <==> key in s.cache
    ensures r.store.backing == s.backing
    ensures key in s.cache ==> r.row == [] && r.store == s
    ensures key !in s.cache && key !in s.backing ==> r == Reply(NotFound, [], s)
    ensures key !in s.cache && key in s.backing ==>
              r.row == RocksDb.Read(s.backing, key, fields).row
              && (allocOk ==> r.status == NotFound && r.store.cache == s.cache[key := r.row[0].value])
              && (!allocOk ==> r.status == Error && r.store == s)
  {
    if key in s.cache then Reply(OK, [], s)
    else
      var reply := RocksDb.Read(s.backing, key, fields);
      if reply.status == OK then
        if allocOk then Reply(NotFound, reply.row, Store(s.cache[key := reply.row[0].value], s.backing))
        else Reply(Error, reply.row, s)
      else Reply(NotFound, reply.row, s)
  }

  /** `Scan` is not implemented by this backend: always `Error`, nothing
      changes. */
  function Scan(s: Store, key: Key, len: int, fields: Option<seq<Bytes>>): (r: (Status, seq<seq<Field>>, Store))
    ensures r.0 == Error && r.1 == [] && r.2 == s
  {
    (Error, [], s)
  }

  /** `Update`: only a cached key is updated. The cache then holds the
      first field's new value and the backing store merges the fields,
      whose status is the result; a full cache gives `Error` and touches
      nothing. */
  function Update(s: Store, key: Key, values: seq<Field>, allocOk: bool): (r: (Status, Store))
    requires |values| > 0 && (key in s.cache && allocOk ==> RocksDb.Readable(s.backing, key))
    ensures key !in s.cache ==> r == (NotFound, s)
    ensures key in s.cache && !allocOk ==> r == (Error, s)
    ensures key in s.cache && allocOk ==>
              r.1.cache == s.cache[key := values[0].value]
              && (r.0, r.1.backing) == RocksDb.Update(s.backing, key, values)
  {
    if key !in s.cache then (NotFound, s)
    else if !allocOk then (Error, s)
    else
      var (status, backing) := RocksDb.Update(s.backing, key, values);
      (status, Store(s.cache[key := values[0].value], backing))
  }

  /** `Insert`: the cache holds the first field's value and the backing
      store the row, whose status is the result; a full cache gives
      `Error` and touches nothing. */
  function Insert(s: Store, key: Key, values: seq<Field>, allocOk: bool): (r: (Status, Store))
    requires |values| > 0
    ensures !allocOk ==> r == (Error, s)
    ensures allocOk ==>
              r.1.cache == s.cache[key := values[0].value]
              && (r.0, r.1.backing) == RocksDb.Insert(s.backing, key, values)
  {
    if !allocOk then (Error, s)
    else
      var (status, backing) := RocksDb.Insert(s.backing, key, values);
      (status, Store(s.cache[key := values[0].value], backing))
  }

  /** `Delete` evicts the key from the cache only: `OK` when it was
      cached, `NotFound` otherwise. The backing store keeps the row. */
  function Delete(s: Store, key: Key): (r: (Status, Store))
    ensures r.0 == OK <==> key in s.cache
    ensures r.0 != Error
    ensures r.1 == Store(s.cache - {key}, s.backing)
  {
    (if key in s.cache then OK else NotFound, Store(s.cache - {key}, s.backing))
  }

  // ---------------------------------------------------------------------
  // Properties

  /** Every operation keeps the cache within the backing store. */
  lemma OperationsKeepCoherent(s: Store, key: Key, fields: Option<seq<Bytes>>, values: seq<Field>, ok: bool)
    requires Coherent(s)
    ensures ReadDefined(s, key, fields) ==> Coherent(Read(s, key, fields, ok).store)
    ensures |values| > 0 && (key in s.cache && ok ==> RocksDb.Readable(s.backing, key)) ==>
              Coherent(Update(s, key, values, ok).1)
    ensures |values| > 0 ==> Coherent(Insert(s, key, values, ok).1)
    ensures Coherent(Delete(s, key).1)
  {
  }

  /** On a coherent store an update of a cached key with room in the cache
      succeeds: the backing store has the key. */
  lemma CachedUpdateSucceeds(s: Store, key: Key, values: seq<Field>)
    requires Coherent(s) && key in s.cache
    requires |values| > 0 && RocksDb.Readable(s.backing, key)
    ensures Update(s, key, values, true).0 == OK
  {
  }

  /** A miss that finds the key and has room makes the next read of that
      key a hit, which leaves the store as the miss left it. */
  lemma ReadFillsCache(s: Store, key: Key, fields: Option<seq<Bytes>>, again: Option<seq<Bytes>>, ok: bool)
    requires ReadDefined(s, key, fields) && key !in s.cache && key in s.backing
    ensures ReadDefined(Read(s, key, fields, true).store, key, again)
    ensures Read(Read(s, key, fields, true).store, key, again, ok)
            == Reply(OK, [], Read(s, key, fields, true).store)
  {
  }

  /** An insert with room in the cache makes the next read of the key a
      hit, even though the read delivers no row. */
  lemma InsertThenReadHits(s: Store, key: Key, values: seq<Field>, fields: Option<seq<Bytes>>, ok: bool)
    requires |values| > 0
    ensures ReadDefined(Insert(s, key, values, true).1, key, fields)
    ensures Read(Insert(s, key, values, true).1, key, fields, ok)
            == Reply(OK, [], Insert(s, key, values, true).1)
  {
  }

  /** After a delete the key misses, but the backing store still has the
      row, so a read with room in the cache brings it back. */
  lemma DeleteThenReadRefills(s: Store, key: Key, fields: Option<seq<Bytes>>)
    requires RocksDb.Readable(s.backing, key) && key in s.backing
    requires |RocksDb.Read(s.backing, key, fields).row| > 0
    ensures ReadDefined(Delete(s, key).1, key, fields)
    ensures Read(Delete(s, key).1, key, fields, true).status == NotFound
    ensures key in Read(Delete(s, key).1, key, fields, true).store.cache
  {
  }
}

=== FILE: cachelib_holpaca.dfy ===
/** The Holpaca variant of the CacheLib backend. It keeps the cache and
    backing store of `CacheLib` but asks the cache by value: an empty cached
    value reads as a miss. An update no longer needs the key to be cached,
    and it reports `OK` whatever the backing store says. `Scan`, `Insert`
    and `Delete` are the same code as in `CacheLib`, and the model uses
    `CacheLib`'s, with the cache's put in place of its allocation. Whether
    the cache accepts a value is the `putOk` input; eviction is not
    modelled. */
module CacheLibHolpaca {
  import opened Wrappers
  import opened Db
  import RocksDb
  import opened CacheLib

  /** The cache answers with a non-empty value. */
  predicate Hit(s: Store, key: Key)
  {
    key in s.cache && |s.cache[key]| > 0
  }

  /** A read is defined: as for `CacheLib`, with a hit meaning a non-empty
      cached value. */
  predicate HolpacaReadDefined(s: Store, key: Key, fields: Option<seq<Bytes>>)
  {
    Hit(s, key)
    || (RocksDb.Readable(s.backing, key)
        && (key in s.backing ==> |RocksDb.Read(s.backing, key, fields).row| > 0))
  }

  /** `Read`: `OK` exactly on a hit, which changes nothing. Otherwise the
      backing row is read and left in the result; when there is one, its
      first value is put in the cache and the result is `NotFound`, or
      `Error` when the cache refuses it. */
  function Read(s: Store, key: Key, fields: Option<seq<Bytes>>, putOk: bool): (r: Reply)
    requires HolpacaReadDefined(s, key, fields)
    ensures r.status == OK <==> Hit(s, key)
    ensures r.store.backing == s.backing
    ensures Hit(s, key) ==> r.row == [] && r.store == s
    ensures !Hit(s, key) && key !in s.backing ==> r == Reply(NotFound, [], s)
    ensures !Hit(s, key) && key in s.backing ==>
              r.row == RocksDb.Read(s.backing, key, fields).row
              && (putOk ==> r.status == NotFound && r.store.cache == s.cache[key := r.row[0].value])
              && (!putOk ==> r.status == Error && r.store == s)
  {
    if Hit(s, key) then Reply(OK, [], s)
    else
      var reply := RocksDb.Read(s.backing, key, fields);
      if reply.status == OK then
        if putOk then Reply(NotFound, reply.row, Store(s.cache[key := reply.row[0].value], s.backing))
        else Reply(Error, reply.row, s)
      else Reply(NotFound, reply.row, s)
  }

  /** `Update`: the first field's value is put in the cache whether or not
      the key was cached; when the cache accepts it the backing store merges
      the fields and the result is `OK`, even when the backing store has no
      such key. A refused put gives `Error` and touches nothing. */
  function Update(s: Store, key: Key, values: seq<Field>, putOk: bool): (r: (Status, Store))
    requires |values| > 0 && (putOk ==> RocksDb.Readable(s.backing, key))
    ensures r.0 == OK <==> putOk
    ensures r.0 != NotFound
    ensures !putOk ==> r.1 == s
    ensures putOk ==>
              r.1.cache == s.cache[key := values[0].value]
              && r.1.backing == RocksDb.Update(s.backing, key, values).1
  {
    if putOk then (OK, Store(s.cache[key := values[0].value], RocksDb.Update(s.backing, key, values).1))
    else (Error, s)
  }

  // ---------------------------------------------------------------------
  // Properties

  /** Every cached value is non-empty. */
  predicate NoEmptyValues(s: Store)
  {
    forall k :: k in s.cache ==> |s.cache[k]| > 0
  }

  /** With no empty cached value the two backends read alike. */
  lemma AgreesWithCacheLib(s: Store, key: Key, fields: Option<seq<Bytes>>, ok: bool)
    requires NoEmptyValues(s)
    ensures HolpacaReadDefined(s, key, fields) <==> ReadDefined(s, key, fields)
    ensures ReadDefined(s, key, fields) ==> Read(s, key, fields, ok) == CacheLib.Read(s, key, fields, ok)
  {
  }

  /** Unlike `CacheLib`, an update of a key neither store has reports `OK`,
      leaves the backing store without the key, and a later read of a
      non-empty value hits: the cache is no longer within the backing
      store. */
  lemma UpdateOfAbsentKeyHits(s: Store, key: Key, values: seq<Field>, fields: Option<seq<Bytes>>, ok: bool)
    requires key !in s.backing && key !in s.cache
    requires |values| > 0 && |values[0].value| > 0
    ensures CacheLib.Update(s, key, values, true) == (NotFound, s)
    ensures Update(s, key, values, true).0 == OK
    ensures Update(s, key, values, true).1.backing == s.backing
    ensures !Coherent(Update(s, key, values, true).1)
    ensures HolpacaReadDefined(Update(s, key, values, true).1, key, fields)
    ensures Read(Update(s, key, values, true).1, key, fields, ok).status == OK
  {
  }

  /** A cached empty value is a miss: the read goes to the backing store,
      and when the backing store has the row and the cache takes its first
      value the key is cached again. */
  lemma EmptyValueMisses(s: Store, key: Key, fields: Option<seq<Bytes>>, ok: bool)
    requires key in s.cache && s.cache[key] == []
    requires HolpacaReadDefined(s, key, fields)
    ensures Read(s, key, fields, ok).status != OK
    ensures Read(s, key, fields, ok).row == RocksDb.Read(s.backing, key, fields).row
    ensures key in s.backing && ok ==>
              Read(s, key, fields, ok).store.cache[key] == RocksDb.Read(s.backing, key, fields).row[0].value
  {
  }
}

=== FILE: client.dfy ===
/** A worker thread. It hands the store its thread id, initialises it,
    optionally starts the terminator (which will set the stop flag after
    the maximum execution time), then runs its operation budget: in load
    mode every operation is an insert and the stop flag is never looked
    at; in transaction mode the flag is checked before each operation and
    a set flag ends the loop. It cleans the store up when asked to and
    answers the number of operations it made. A `utils::Exception` from the
    store ends the process with exit code 1; the `std::stoi` family's
    exceptions, thrown by the trace parser and by the stores' `Init` while
    they parse their numeric settings, are not of that type and leave the
    thread.

    Time and threads are replaced by oracles: `stop[i]` is what the i-th
    flag check reads (false beyond its end), and `init` says how the
    store's `Init` fails, if it does. */
module Client {
  import opened Wrappers
  import opened Db
  import opened CxxString
  import opened CoreWorkload
  import RocksDb

  /** What the worker asks of the outside world, in order. */
  datatype Event =
    | SetThreadId(id: int)
    | InitDb
    | StartTerminator
    | Insert(request: InsertRequest)
    | CleanupDb

  datatype Outcome =
    | Returned(ops: int)
    | Exited(code: int)
    | Escaped(error: NumberError)

  /** How a store's `Init` fails: with a `utils::Exception`, or with a
      numeric setting that `std::stoi`, `std::stol` or `std::stoul` cannot
      parse (RocksDB's options, CacheLib's cache size). */
  datatype InitFailure = Thrown | Number(error: NumberError)

  /** The kind of exception a failed `RocksDB::Init` throws. Only the
      options' numeric parses throw the standard library's exceptions; a
      missing path, an unreadable options file, an unknown compression, a
      failed destroy and a failed open all throw `utils::Exception`. */
  function RocksInitFailure(e: RocksDb.InitError): (f: InitFailure)
    ensures f.Number? <==> e.BadOptions? && e.error.BadNumber?
    ensures f.Number? ==> f.error == e.error.error
    ensures e.MissingPath? || e.DestroyFailed? || e.OpenFailed? ==> f == Thrown
    ensures e.BadOptions? && (e.error.LoadOptionsFailed? || e.error.UnknownCompression?) ==> f == Thrown
  {
    if e.BadOptions? && e.error.BadNumber? then Number(e.error.error) else Thrown
  }

  /** The number of iterations a `for (ops = 0; ops < num_ops; ++ops)`
      loop makes. */
  function Budget(numOps: int): nat
  {
    if numOps > 0 then numOps else 0
  }

  /** What the `i`-th check of the stop flag reads. */
  predicate StopSeen(stop: seq<bool>, i: nat)
  {
    i < |stop| && stop[i]
  }

  /** The first check, from `i` on and below `n`, that reads the flag set;
      `n` when there is none. */
  function FirstStop(stop: seq<bool>, i: nat, n: nat): (r: nat)
    requires i <= n
    ensures i <= r <= n
    ensures forall j :: i <= j < r ==> !StopSeen(stop, j)
    ensures r < n ==> StopSeen(stop, r)
    decreases n - i
  {
    if i == n then n
    else if StopSeen(stop, i) then i
    else FirstStop(stop, i + 1, n)
  }

  /** No stop was read before `i`, nor at `i`: the first stop lies beyond `i`. */
  lemma FirstStopAfter(stop: seq<bool>, i: nat, n: nat)
    requires i < n
    requires forall j :: 0 <= j <= i ==> !StopSeen(stop, j)
    ensures i < FirstStop(stop, 0, n)
  {
  }

  /** A check that reads the flag set, or the end of the budget, with no
      stop before it, is the first stop. */
  lemma {:induction false} FirstStopAt(stop: seq<bool>, k: nat, i: nat, n: nat)
    requires k <= i <= n
    requires forall j :: k <= j < i ==> !StopSeen(stop, j)
    requires i == n || StopSeen(stop, i)
    ensures FirstStop(stop, k, n) == i
    decreases i - k
  {
    if k < i {
      FirstStopAt(stop, k + 1, i, n);
    }
  }

  /** The `i`-th token of the trace parses as a record. */
  predicate RecordParses(w: Workload, i: nat)
  {
    ParseRecord(LineAt(w, i)).Success?
  }

  /** The first `n` tokens of the trace all parse. */
  predicate TraceParses(w: Workload, n: nat)
  {
    forall i :: 0 <= i < n ==> RecordParses(w, i)
  }

  /** The insert the `i`-th record asks for. */
  function RequestAt(w: Workload, i: nat, gen: nat -> byte): InsertRequest
    requires RecordParses(w, i)
  {
    var rec := ParseRecord(LineAt(w, i)).value;
    InsertRequest(w.tableName, rec.key, [Field([], BuildValue(rec.size, gen))])
  }

  /** The insert of each record that parses. */
  function InsertOf(w: Workload, gen: nat -> byte): int --> Event
  {
    i requires 0 <= i && RecordParses(w, i) => Insert(RequestAt(w, i, gen))
  }

  /** The inserts of the first `n` records, in order. */
  function LoadEvents(w: Workload, n: nat, gen: nat -> byte): (es: seq<Event>)
    requires TraceParses(w, n)
    ensures |es| == n && CleanupDb !in es
  {
    var es := seq(n, InsertOf(w, gen));
    assert forall i :: 0 <= i < n ==> es[i].Insert?;
    es
  }

  lemma SeqSnoc<T>(f: int --> T, n: nat)
    requires forall i :: 0 <= i <= n ==> f.requires(i)
    ensures seq(n + 1, f) == seq(n, f) + [f(n)]
  {
  }

  /** The insert of record `n` follows the inserts of the records before. */
  lemma LoadEventsStep(w: Workload, n: nat, gen: nat -> byte)
    requires TraceParses(w, n + 1)
    ensures LoadEvents(w, n + 1, gen) == LoadEvents(w, n, gen) + [Insert(RequestAt(w, n, gen))]
  {
    SeqSnoc(InsertOf(w, gen), n);
  }

  /** Reading record `n` after the first `n`: the token read is the
      trace's `n`-th, the reader moves on by one, and the parsed prefix
      grows exactly when that token parses. */
  lemma RecordStep(w: Workload, n: nat)
    requires TraceParses(w, n)
    ensures LineAt(Advance(w, n), 0) == LineAt(w, n)
    ensures NextLine(Advance(w, n)).1 == Advance(w, n + 1)
    ensures TraceParses(w, n + 1) <==> RecordParses(w, n)
  {
    AdvanceStep(w, n);
    assert LineAt(Advance(w, n), 0) == LineAt(w, n + 0);
  }

  /** A prefix that fails to parse spoils every longer prefix. */
  lemma TraceFailsFrom(w: Workload, n: nat, m: nat)
    requires n <= m && !TraceParses(w, n)
    ensures !TraceParses(w, m)
  {
  }

  /** A record that fails to parse before the first stop spoils the
      transaction run. */
  lemma TransactionFails(w: Workload, stop: seq<bool>, n: nat, ops: nat)
    requires ops < n && !TraceParses(w, ops + 1)
    requires forall j :: 0 <= j <= ops ==> !StopSeen(stop, j)
    ensures !TraceParses(w, FirstStop(stop, 0, n))
  {
    FirstStopAfter(stop, ops, n);
    TraceFailsFrom(w, ops + 1, FirstStop(stop, 0, n));
  }

  /** The events before the operations: the thread id, the store's
      `Init`, and the terminator when there is a time limit. */
  function Prologue(threadId: int, maxExecutionTime: int): (es: seq<Event>)
    ensures |es| >= 2 && es[0] == SetThreadId(threadId) && es[1] == InitDb
    ensures CleanupDb !in es
  {
    [SetThreadId(threadId), InitDb] + (if maxExecutionTime > 0 then [StartTerminator] else [])
  }

  function Epilogue(cleanupDb: bool): (es: seq<Event>)
    ensures CleanupDb in es <==> cleanupDb
  {
    if cleanupDb then [CleanupDb] else []
  }

  /** One load iteration on the workload positioned after `ops` records,
      with the inserts of those records made. */
  method LoadStep(wl: Workload, ops: nat, w: Workload, inserts: seq<Event>, gen: nat -> byte)
    returns (r: Result<(Workload, seq<Event>), NumberError>)
    requires TraceParses(wl, ops) && w == Advance(wl, ops) && inserts == LoadEvents(wl, ops, gen)
    ensures r.Success? <==> TraceParses(wl, ops + 1)
    ensures r.Success? ==> TraceParses(wl, ops + 1) && r.value.0 == Advance(wl, ops + 1)
                           && r.value.1 == LoadEvents(wl, ops + 1, gen)
  {
    RecordStep(wl, ops);
    var res := DoInsert(w, gen);
    match res {
      case Failure(e) =>
        r := Failure(e);
      case Success((w', request)) =>
        assert request == RequestAt(wl, ops, gen);
        LoadEventsStep(wl, ops, gen);
        r := Success((w', inserts + [Insert(request)]));
    }
  }

  /** One transaction iteration on the workload positioned after `ops`
      records. */
  method TransactionStep(wl: Workload, ops: nat, w: Workload)
    returns (r: Result<Workload, NumberError>)
    requires TraceParses(wl, ops) && w == Advance(wl, ops)
    ensures r.Success? <==> TraceParses(wl, ops + 1)
    ensures r.Success? ==> r.value == Advance(wl, ops + 1)
  {
    RecordStep(wl, ops);
    r := DoTransaction(w);
  }

  /** The load loop: `max(num_ops, 0)` inserts, one record each, without
      looking at the stop flag. `escaped` is the parse failure that ends
      it early. */
  method LoadLoop(wl: Workload, numOps: int, gen: nat -> byte)
    returns (escaped: Option<NumberError>, inserts: seq<Event>)
    ensures escaped.Some? <==> !TraceParses(wl, Budget(numOps))
    ensures escaped.None? ==> inserts == LoadEvents(wl, Budget(numOps), gen)
    ensures CleanupDb !in inserts
  {
    var ops := 0;
    var w := wl;
    inserts := [];
    while ops < numOps
      invariant 0 <= ops <= Budget(numOps)
      invariant w == Advance(wl, ops)
      invariant TraceParses(wl, ops)
      invariant inserts == LoadEvents(wl, ops, gen)
    {
      var step := LoadStep(wl, ops, w, inserts, gen);
      match step {
        case Failure(e) =>
          TraceFailsFrom(wl, ops + 1, Budget(numOps));
          return Some(e), inserts;
        case Success((w', inserts')) =>
          w := w';
          inserts := inserts';
          ops := ops + 1;
      }
    }
    escaped := None;
  }

  /** The transaction loop: the flag is checked before each operation, and
      each operation consumes one record. `ops` counts the operations
      made. */
  method TransactionLoop(wl: Workload, numOps: int, stop: seq<bool>)
    returns (escaped: Option<NumberError>, ops: nat)
    ensures escaped.Some? <==> !TraceParses(wl, FirstStop(stop, 0, Budget(numOps)))
    ensures escaped.None? ==> ops == FirstStop(stop, 0, Budget(numOps))
  {
    ops := 0;
    var w := wl;
    while ops < numOps && !StopSeen(stop, ops)
      invariant ops <= Budget(numOps)
      invariant w == Advance(wl, ops)
      invariant TraceParses(wl, ops)
      invariant forall j :: 0 <= j < ops ==> !StopSeen(stop, j)
    {
      var step := TransactionStep(wl, ops, w);
      match step {
        case Failure(e) =>
          TransactionFails(wl, stop, Budget(numOps), ops);
          return Some(e), ops;
        case Success(w') =>
          w := w';
          ops := ops + 1;
      }
    }
    FirstStopAt(stop, 0, ops, Budget(numOps));
    escaped := None;
  }

  /** No check of the flag reads it set. */
  predicate NeverStopped(stop: seq<bool>)
  {
    forall j :: 0 <= j < |stop| ==> !stop[j]
  }

  /** With no stop, the transaction loop runs its whole budget. */
  lemma NoStopRunsBudget(stop: seq<bool>, n: nat)
    requires NeverStopped(stop)
    ensures FirstStop(stop, 0, n) == n
  {
    FirstStopAt(stop, 0, n, n);
  }

  /** `ClientThread` as declared in the client header. Only the terminator
      sets the flag, and it runs only with a positive time limit, so
      without one every check reads the flag clear. */
  method ClientThread(maxExecutionTime: int, threadId: int, wl: Workload, numOps: int,
                      load: bool, cleanupDb: bool, init: Option<InitFailure>, stop: seq<bool>, gen: nat -> byte)
    returns (outcome: Outcome, events: seq<Event>)
    requires maxExecutionTime <= 0 ==> NeverStopped(stop)
    ensures |events| >= 2 && events[0] == SetThreadId(threadId) && events[1] == InitDb
    ensures init == Some(Thrown) ==> outcome == Exited(1) && events == [SetThreadId(threadId), InitDb]
    ensures init.Some? && init.value.Number? ==>
              outcome == Escaped(init.value.error) && events == [SetThreadId(threadId), InitDb]
    ensures init.None? && load ==> (outcome.Escaped? <==> !TraceParses(wl, Budget(numOps)))
    ensures init.None? && load && TraceParses(wl, Budget(numOps)) ==>
              outcome == Returned(Budget(numOps))
              && events == Prologue(threadId, maxExecutionTime) + LoadEvents(wl, Budget(numOps), gen)
                           + Epilogue(cleanupDb)
    ensures init.None? && !load ==>
              (outcome.Escaped? <==> !TraceParses(wl, FirstStop(stop, 0, Budget(numOps))))
    ensures init.None? && !load && TraceParses(wl, FirstStop(stop, 0, Budget(numOps))) ==>
              outcome == Returned(FirstStop(stop, 0, Budget(numOps)))
              && events == Prologue(threadId, maxExecutionTime) + Epilogue(cleanupDb)
    ensures init.None? && !load && maxExecutionTime <= 0 ==>
              (outcome.Escaped? <==> !TraceParses(wl, Budget(numOps)))
              && (TraceParses(wl, Budget(numOps)) ==> outcome == Returned(Budget(numOps)))
    ensures outcome.Returned? ==> 0 <= outcome.ops <= Budget(numOps)
    ensures CleanupDb in events <==> outcome.Returned? && cleanupDb
  {
    events := [SetThreadId(threadId), InitDb];
    if init.Some? {
      outcome := if init.value.Number? then Escaped(init.value.error) else Exited(1);
      return;
    }
    events := Prologue(threadId, maxExecutionTime);
    var escaped: Option<NumberError>;
    var ops: nat;
    if load {
      var inserts;
      escaped, inserts := LoadLoop(wl, numOps, gen);
      events := events + inserts;
      ops := Budget(numOps);
    } else {
      escaped, ops := TransactionLoop(wl, numOps, stop);
      if maxExecutionTime <= 0 {
        NoStopRunsBudget(stop, Budget(numOps));
      }
    }
    if escaped.Some? {
      outcome := Escaped(escaped.value);
      return;
    }
    events := events + Epilogue(cleanupDb);
    outcome := Returned(ops);
  }
}

=== FILE: core_workload.dfy ===
/** The trace-driven workload. Each worker owns a workload that reads
    whitespace-separated records from a trace file; a record is a line of
    comma-separated columns of which the key (column 1), the key size
    (column 2), the value size (column 3) and the operation (column 5) are
    read by a chain of `find`/`erase` calls. Inserting consumes one record
    and issues one insert; a transaction consumes one record and issues no
    store call at all. A stop flag, set from outside, ends the
    transaction loop. */
module CoreWorkload {
  import opened Wrappers
  import opened Db
  import opened CxxString
  import opened Ops

  const TABLENAME_PROPERTY := "table"
  const TABLENAME_DEFAULT := "usertable"
  const FILENAME_PROPERTY := "file"
  const OPERATION_COUNT_PROPERTY := "operationcount"

  // ---------------------------------------------------------------------
  // Columns

  /** The comma-separated columns of a record: always at least one, and
      none holds a comma. This is the reference the parser is proved
      against. */
  function Split(s: string): (parts: seq<string>)
    ensures |parts| >= 1
  {
    if |s| == 0 then [""]
    else
      var rest := Split(s[1..]);
      if s[0] == ',' then [""] + rest else [[s[0]] + rest[0]] + rest[1..]
  }

  lemma {:induction false} SplitNoComma(s: string)
    requires ',' !in s
    ensures Split(s) == [s]
  {
    if |s| > 0 {
      assert ',' !in s[1..] by {
        forall i | 0 <= i < |s[1..]| ensures s[1..][i] != ',' {
          assert s[1..][i] == s[i + 1];
        }
      }
      SplitNoComma(s[1..]);
      assert [s[0]] + s[1..] == s;
    }
  }

  lemma {:induction false} SplitAtComma(s: string, k: nat)
    requires k < |s| && s[k] == ',' && ',' !in s[..k]
    ensures Split(s) == [s[..k]] + Split(s[k + 1..])
  {
    if k > 0 {
      assert s[0] != ',' by {
        assert s[..k][0] == s[0];
      }
      var t := s[1..k];
      assert s[1..][..k - 1] == t;
      assert ',' !in t by {
        forall i | 0 <= i < |t| ensures t[i] != ',' {
          assert t[i] == s[..k][i + 1];
        }
      }
      SplitAtComma(s[1..], k - 1);
      assert s[1..][k..] == s[k + 1..];
      assert [s[0]] + s[1..k] == s[..k];
    }
  }

  /** Column `i`, or the last column when there are fewer: once the commas
      run out, each further `find` answers `npos` and the text stays put. */
  function Column(parts: seq<string>, i: nat): string
    requires |parts| >= 1
  {
    if i < |parts| then parts[i] else parts[|parts| - 1]
  }

  // ---------------------------------------------------------------------
  // The find/erase chain

  /** `line.substr(0, line.find(','))`: the text before the first comma. */
  function Head(s: Text): string
  {
    Substr(s, Find(s, ','))
  }

  /** `line.erase(0, line.find(',') + 1)`: with no comma, `npos + 1` wraps
      to zero and nothing is erased. */
  function Cut(s: Text): (r: Text)
  {
    Erase(s, SizeAdd(Find(s, ','), 1))
  }

  /** The head is the first column, and cutting drops exactly the first
      column unless it is the only one. */
  lemma CutSplit(s: Text)
    ensures Head(s) == Split(s)[0]
    ensures Split(Cut(s)) == if |Split(s)| > 1 then Split(s)[1..] else Split(s)
  {
    if Find(s, ',') == NPOS {
      CutWithoutComma(s);
    } else {
      CutAtComma(s);
    }
  }

  lemma CutWithoutComma(s: Text)
    requires Find(s, ',') == NPOS
    ensures Split(s) == [s] && Head(s) == s && Cut(s) == s
  {
    SplitNoComma(s);
    assert SizeAdd(NPOS, 1) == 0;
  }

  lemma CutAtComma(s: Text)
    requires Find(s, ',') != NPOS
    ensures Split(s) == [Head(s)] + Split(Cut(s))
  {
    var k := Find(s, ',');
    SplitAtComma(s, k);
    assert Head(s) == s[..k];
    assert SizeAdd(k, 1) == k + 1;
    assert Cut(s) == s[k + 1..];
  }

  /** Cutting a text whose columns are those of `parts` from column `m` on
      moves one column further, stopping at the last. */
  lemma CutStep(s: Text, parts: seq<string>, k: nat)
    requires |parts| >= 1
    requires Split(s) == parts[if k < |parts| then k else |parts| - 1..]
    ensures Head(s) == Column(parts, k)
    ensures Split(Cut(s)) == parts[if k + 1 < |parts| then k + 1 else |parts| - 1..]
  {
    CutSplit(s);
  }

  datatype Record = Record(op: Operation, key: string, size: nat)

  /** The operation a trace token names: `get` reads, `set` and `replace`
      update, `add` inserts, and anything else is the sentinel. */
  function TokenOp(token: string): (op: Operation)
    ensures op == Base(READ) <==> token == "get"
    ensures op == Base(UPDATE) <==> token == "set" || token == "replace"
    ensures op == Base(INSERT) <==> token == "add"
    ensures op == MaxOpType <==> token !in {"get", "set", "replace", "add"}
  {
    if token == "get" then Base(READ)
    else if token == "set" || token == "replace" then Base(UPDATE)
    else if token == "add" then Base(INSERT)
    else MaxOpType
  }

  /** The parse of one record, step for step: skip a column, take the key,
      take the key size with `stoi`, parse the value size and drop it, skip
      a column, take the operation token. Either `stoi` can throw. The size
      every branch returns is the key size, converted to `size_t`. */
  function ParseRecord(line: Text): Result<Record, NumberError>
  {
    var l1 := Cut(line);
    var key := Head(l1);
    var l2 := Cut(l1);
    var keySize :- Stoi(Head(l2));
    var l3 := Cut(l2);
    var _ :- Stoi(Head(l3));
    var l5 := Cut(Cut(l3));
    Success(Record(TokenOp(Head(l5)), key, ToSizeT(keySize)))
  }

  /** The same parse stated on the columns. */
  function RecordOf(parts: seq<string>): (r: Result<Record, NumberError>)
    requires |parts| >= 1
    ensures r.Success? <==> Stoi(Column(parts, 2)).Success? && Stoi(Column(parts, 3)).Success?
    ensures r.Success? ==> r.value.key == Column(parts, 1)
    ensures r.Success? ==> r.value.op == TokenOp(Column(parts, 5))
    ensures r.Success? ==> r.value.size == ToSizeT(Stoi(Column(parts, 2)).value)
  {
    match Stoi(Column(parts, 2))
    case Failure(e) => Failure(e)
    case Success(keySize) =>
      match Stoi(Column(parts, 3))
      case Failure(e) => Failure(e)
      case Success(_) => Success(Record(TokenOp(Column(parts, 5)), Column(parts, 1), ToSizeT(keySize)))
  }

  /** The find/erase chain reads exactly the columns it is meant to: the
      key from column 1, the size from column 2, the operation from
      column 5, while column 3 must parse too. On a record with fewer
      columns the last one is read again in place of each missing one. */
  lemma ParseRecordColumns(line: Text)
    ensures ParseRecord(line) == RecordOf(Split(line))
  {
    var parts := Split(line);
    assert parts == parts[0..];
    CutStep(line, parts, 0);
    var l1 := Cut(line);
    CutStep(l1, parts, 1);
    var l2 := Cut(l1);
    CutStep(l2, parts, 2);
    var l3 := Cut(l2);
    CutStep(l3, parts, 3);
    var l4 := Cut(l3);
    CutStep(l4, parts, 4);
    var l5 := Cut(l4);
    CutStep(l5, parts, 5);
  }

  /** A complete six-column record yields its key, its key size and its
      operation. */
  lemma SixColumns(line: Text)
    requires |Split(line)| >= 6
    requires Stoi(Split(line)[2]).Success? && Stoi(Split(line)[3]).Success?
    ensures ParseRecord(line).Success?
    ensures ParseRecord(line).value ==
              Record(TokenOp(Split(line)[5]), Split(line)[1], ToSizeT(Stoi(Split(line)[2]).value))
  {
    ParseRecordColumns(line);
  }

  /** The empty line an exhausted trace yields does not parse. */
  lemma EmptyLineFails()
    ensures ParseRecord("") == Failure(InvalidArgument)
  {
    ParseRecordColumns("");
    assert Split("") == [""];
  }

  // ---------------------------------------------------------------------
  // The stop flag

  datatype StopFlag = StopFlag(requested: bool)

  const INITIAL_FLAG := StopFlag(false)

  /** `request_stop`. */
  function RequestStop(f: StopFlag): StopFlag
  {
    StopFlag(true)
  }

  /** `is_stop_requested`. */
  function IsStopRequested(f: StopFlag): bool
  {
    f.requested
  }

  datatype FlagAction = Request | Query

  /** The answers the queries in `actions` receive, starting from `f`. */
  function Answers(f: StopFlag, actions: seq<FlagAction>): (r: seq<bool>)
    ensures |r| == QueryCount(actions)
    decreases |actions|
  {
    if |actions| == 0 then []
    else if actions[0] == Request then Answers(RequestStop(f), actions[1..])
    else [IsStopRequested(f)] + Answers(f, actions[1..])
  }

  /** Queries answer in order. */
  function QueryCount(actions: seq<FlagAction>): nat
  {
    if |actions| == 0 then 0 else (if actions[0] == Query then 1 else 0) + QueryCount(actions[1..])
  }

  /** From the initial flag, a query answers true exactly when some request
      came before it; so the flag is set-only, and requesting twice is
      the same as once. */
  lemma {:induction false} FlagSetOnly(f: StopFlag, actions: seq<FlagAction>, i: nat, j: nat)
    requires i <= j < |Answers(f, actions)|
    ensures Answers(f, actions)[i] ==> Answers(f, actions)[j]
    ensures !f.requested && Request !in actions ==> !Answers(f, actions)[j]
    ensures f.requested ==> Answers(f, actions)[i]
    decreases |actions|
  {
    if actions[0] == Request {
      FlagSetOnly(RequestStop(f), actions[1..], i, j);
      assert Request in actions;
    } else if i == 0 {
      if j > 0 {
        FlagSetOnly(f, actions[1..], 0, j - 1);
        assert Answers(f, actions)[j] == Answers(f, actions[1..])[j - 1];
        if !f.requested && Request !in actions {
          assert Request !in actions[1..];
        }
      }
    } else {
      FlagSetOnly(f, actions[1..], i - 1, j - 1);
      assert Request !in actions ==> Request !in actions[1..];
    }
  }

  // ---------------------------------------------------------------------
  // The workload

  /** A worker's workload: its table, the tokens of its trace file, how far
      it has read, and its stop flag. */
  datatype Workload = Workload(tableName: string, trace: seq<Text>, pos: nat, stop: StopFlag)

  /** `Init`: the table is looked up as `table<suffix>`, then `table`, then
      defaults to "usertable"; the trace is looked up only as
      `file<suffix>`. `files` holds the tokens of each readable file; a
      file that cannot be opened, or the empty name a missing property
      gives, reads as empty. */
  function Init(suffix: string, props: Props, files: map<string, seq<Text>>): (w: Workload)
    ensures TABLENAME_PROPERTY + suffix in props ==> w.tableName == props[TABLENAME_PROPERTY + suffix]
    ensures TABLENAME_PROPERTY + suffix !in props && TABLENAME_PROPERTY in props ==>
              w.tableName == props[TABLENAME_PROPERTY]
    ensures TABLENAME_PROPERTY + suffix !in props && TABLENAME_PROPERTY !in props ==>
              w.tableName == TABLENAME_DEFAULT
    ensures FILENAME_PROPERTY + suffix !in props ==> w.trace == []
    ensures FILENAME_PROPERTY + suffix in props && props[FILENAME_PROPERTY + suffix] != ""
            && props[FILENAME_PROPERTY + suffix] in files ==>
              w.trace == files[props[FILENAME_PROPERTY + suffix]]
    ensures FILENAME_PROPERTY + suffix in props
            && (props[FILENAME_PROPERTY + suffix] == "" || props[FILENAME_PROPERTY + suffix] !in files) ==>
              w.trace == []
    ensures w.pos == 0 && !IsStopRequested(w.stop)
  {
    var table := GetProperty(props, TABLENAME_PROPERTY + suffix,
                             GetProperty(props, TABLENAME_PROPERTY, TABLENAME_DEFAULT));
    var file := GetProperty(props, FILENAME_PROPERTY + suffix, "");
    Workload(table, if file != "" && file in files then files[file] else [], 0, INITIAL_FLAG)
  }

  /** The `i`-th token from the read position on; the empty string once
      the trace is exhausted. */
  function LineAt(w: Workload, i: nat): Text
  {
    if w.pos + i < |w.trace| then w.trace[w.pos + i] else ""
  }

  /** `file_buffer_ >> line`: the next token, or "" at the end. */
  function NextLine(w: Workload): (r: (Text, Workload))
    ensures r.0 == LineAt(w, 0)
    ensures r.1 == w.(pos := if w.pos < |w.trace| then w.pos + 1 else w.pos)
  {
    if w.pos < |w.trace| then (w.trace[w.pos], w.(pos := w.pos + 1)) else ("", w)
  }

  /** Reading a line moves the trace one token on. */
  lemma NextLineShifts(w: Workload, i: nat)
    ensures LineAt(NextLine(w).1, i) == LineAt(w, i + 1)
  {
  }

  /** The workload after `n` tokens have been read. */
  function Advance(w: Workload, n: nat): (r: Workload)
    ensures r.tableName == w.tableName && r.trace == w.trace && r.stop == w.stop
    ensures forall i: nat :: LineAt(r, i) == LineAt(w, n + i)
  {
    if w.pos < |w.trace| then w.(pos := if w.pos + n < |w.trace| then w.pos + n else |w.trace|) else w
  }

  lemma AdvanceStep(w: Workload, n: nat)
    ensures NextLine(Advance(w, n)).1 == Advance(w, n + 1)
  {
  }

  /** `NextOperation`: reads one token and parses it. */
  function NextOperation(w: Workload): (r: Result<(Record, Workload), NumberError>)
    ensures r.Success? <==> ParseRecord(LineAt(w, 0)).Success?
    ensures r.Success? ==> r.value.0 == ParseRecord(LineAt(w, 0)).value && r.value.1 == NextLine(w).1
  {
    var (line, w') := NextLine(w);
    var rec :- ParseRecord(line);
    Success((rec, w'))
  }

  /** Once the trace is exhausted, every further operation throws. */
  lemma ExhaustedTraceFails(w: Workload)
    requires w.pos >= |w.trace|
    ensures NextOperation(w) == Failure(InvalidArgument)
  {
    EmptyLineFails();
  }

  /** The insert a workload step asks the store for. */
  datatype InsertRequest = InsertRequest(table: string, key: string, fields: seq<Field>)

  /** `BuildValue`: `size` bytes from the byte generator `gen`. */
  function BuildValue(size: nat, gen: nat -> byte): (v: Bytes)
    ensures |v| == size
  {
    seq(size, i requires 0 <= i => gen(i))
  }

  /** `DoInsert`: consumes one record and asks for one insert of a single
      field with an empty name and a value as long as the record's size. */
  function DoInsert(w: Workload, gen: nat -> byte): (r: Result<(Workload, InsertRequest), NumberError>)
    ensures r.Success? <==> ParseRecord(LineAt(w, 0)).Success?
    ensures r.Success? ==> r.value.0 == NextLine(w).1
    ensures r.Success? ==> r.value.1.table == w.tableName
    ensures r.Success? ==> r.value.1.key == ParseRecord(LineAt(w, 0)).value.key
    ensures r.Success? ==> |r.value.1.fields| == 1 && r.value.1.fields[0].name == []
    ensures r.Success? ==> r.value.1.fields[0].value == BuildValue(ParseRecord(LineAt(w, 0)).value.size, gen)
  {
    var (rec, w') :- NextOperation(w);
    Success((w', InsertRequest(w.tableName, rec.key, [Field([], BuildValue(rec.size, gen))])))
  }

  /** `DoTransaction`: consumes one record; the dispatch to the store is
      disabled, so no store call is made. */
  function DoTransaction(w: Workload): (r: Result<Workload, NumberError>)
    ensures r.Success? <==> ParseRecord(LineAt(w, 0)).Success?
    ensures r.Success? ==> r.value == NextLine(w).1
  {
    var (_, w') :- NextOperation(w);
    Success(w')
  }
}

=== FILE: cxx_string.dfy ===
/** The few C++ standard-library string operations the program leans on,
    with their exact edge cases: `find` answering `npos`, `erase` and
    `substr` clamping their count, `size_t` addition wrapping at 2^64, and
    the `stoi`/`stol`/`stoul` family (leading white space, optional sign,
    longest digit prefix, an exception when there is no digit or the value
    does not fit). */
module CxxString {
  import opened Wrappers

  /** `std::string::npos`, the largest `size_t`. */
  const NPOS: nat := 0xFFFF_FFFF_FFFF_FFFF

  /** A `std::string`: its length, a `size_t`, stays below `npos`. */
  type Text = s: string | |s| < NPOS

  /** Arithmetic on `size_t` wraps modulo 2^64. */
  function SizeAdd(a: nat, b: nat): (r: nat)
    ensures r < 0x1_0000_0000_0000_0000
  {
    (a + b) % 0x1_0000_0000_0000_0000
  }

  /** `s.find(c)`: the first position holding `c`, or `npos`. */
  function Find(s: string, c: char): (r: nat)
    requires |s| < NPOS
    ensures r == NPOS <==> c !in s
    ensures r != NPOS ==> r < |s| && s[r] == c && c !in s[..r]
  {
    if |s| == 0 then NPOS
    else if s[0] == c then 0
    else
      var k := Find(s[1..], c);
      if k == NPOS then NPOS
      else
        assert s[..k + 1] == [s[0]] + s[1..][..k];
        k + 1
  }

  /** `s.substr(0, n)`: at most `n` leading characters. */
  function Substr(s: string, n: nat): string
  {
    if n <= |s| then s[..n] else s
  }

  /** `s.erase(0, n)`: drops at most `n` leading characters. */
  function Erase(s: string, n: nat): (r: string)
    ensures |r| <= |s|
  {
    if n <= |s| then s[n..] else []
  }

  /** `strncmp(s, pre, strlen(pre)) == 0` for strings without NUL. */
  predicate StartsWith(s: string, pre: string)
  {
    |pre| <= |s| && s[..|pre|] == pre
  }

  // ---------------------------------------------------------------------
  // Number conversion

  /** The two exceptions the `sto*` family throws. */
  datatype NumberError = InvalidArgument | OutOfRange

  /** `isspace` in the C locale. */
  predicate IsSpace(c: char)
  {
    c == ' ' || c == '\t' || c == '\n' || c == '\U{000B}' || c == '\U{000C}' || c == '\r'
  }

  predicate IsDigit(c: char)
  {
    '0' <= c <= '9'
  }

  function SkipSpace(s: string): (r: string)
    ensures |r| <= |s|
    ensures |r| > 0 ==> !IsSpace(r[0])
  {
    if |s| > 0 && IsSpace(s[0]) then SkipSpace(s[1..]) else s
  }

  /** The longest prefix of `s` made of decimal digits. */
  function LeadingDigits(s: string): (ds: string)
    ensures |ds| <= |s| && ds == s[..|ds|]
    ensures forall i :: 0 <= i < |ds| ==> IsDigit(ds[i])
    ensures |ds| < |s| ==> !IsDigit(s[|ds|])
  {
    if |s| > 0 && IsDigit(s[0]) then [s[0]] + LeadingDigits(s[1..]) else []
  }

  /** The value of a string of decimal digits, most significant first. */
  function DigitsValue(ds: string): nat
    requires forall i :: 0 <= i < |ds| ==> IsDigit(ds[i])
  {
    if |ds| == 0 then 0
    else
      assert IsDigit(ds[|ds| - 1]);
      10 * DigitsValue(ds[..|ds| - 1]) + (ds[|ds| - 1] as int - '0' as int)
  }

  /** What `strtol` reads: leading white space, an optional sign and at
      least one digit; `None` when no digit follows. */
  function ParseInteger(s: string): Option<int>
  {
    var t := SkipSpace(s);
    var negative := |t| > 0 && t[0] == '-';
    var u := if |t| > 0 && (t[0] == '+' || t[0] == '-') then t[1..] else t;
    var ds := LeadingDigits(u);
    if |ds| == 0 then None
    else
      var magnitude: int := DigitsValue(ds);
      Some(if negative then -magnitude else magnitude)
  }

  /** `std::stoi`: a 32-bit `int`. */
  function Stoi(s: string): (r: Result<int, NumberError>)
    ensures r.Success? ==> -0x8000_0000 <= r.value < 0x8000_0000
    ensures r.Success? <==> ParseInteger(s).Some? && -0x8000_0000 <= ParseInteger(s).value < 0x8000_0000
  {
    match ParseInteger(s)
    case None => Failure(InvalidArgument)
    case Some(v) =>
      if -0x8000_0000 <= v < 0x8000_0000 then Success(v) else Failure(OutOfRange)
  }

  /** `std::stol`: a 64-bit `long`. */
  function Stol(s: string): (r: Result<int, NumberError>)
    ensures r.Success? ==> -0x8000_0000_0000_0000 <= r.value < 0x8000_0000_0000_0000
    ensures r.Success? <==> ParseInteger(s).Some?
                            && -0x8000_0000_0000_0000 <= ParseInteger(s).value < 0x8000_0000_0000_0000
  {
    match ParseInteger(s)
    case None => Failure(InvalidArgument)
    case Some(v) =>
      if -0x8000_0000_0000_0000 <= v < 0x8000_0000_0000_0000 then Success(v) else Failure(OutOfRange)
  }

  /** `std::stoul`: the magnitude must fit in 64 bits, and a leading minus
      sign negates it modulo 2^64. */
  function Stoul(s: string): (r: Result<nat, NumberError>)
    ensures r.Success? ==> r.value < 0x1_0000_0000_0000_0000
    ensures r.Failure? <==> ParseInteger(s).None? || ParseInteger(s).value <= -0x1_0000_0000_0000_0000
                            || 0x1_0000_0000_0000_0000 <= ParseInteger(s).value
  {
    match ParseInteger(s)
    case None => Failure(InvalidArgument)
    case Some(v) =>
      if v <= -0x1_0000_0000_0000_0000 || 0x1_0000_0000_0000_0000 <= v then Failure(OutOfRange)
      else Success(v % 0x1_0000_0000_0000_0000)
  }

  /** Conversion of a signed 64-bit value to a 32-bit `int`, as the
      implementation does it: modulo 2^32, into the signed range. */
  function ToInt32(v: int): (r: int)
    ensures -0x8000_0000 <= r < 0x8000_0000
    ensures (r - v) % 0x1_0000_0000 == 0
    ensures -0x8000_0000 <= v < 0x8000_0000 ==> r == v
  {
    var m := v % 0x1_0000_0000;
    if m < 0x8000_0000 then m else m - 0x1_0000_0000
  }

  /** Conversion of an `int` to a signed `char`: modulo 2^8, into the
      signed range. */
  function ToSignedChar(v: int): (r: int)
    ensures -0x80 <= r < 0x80
    ensures (r - v) % 0x100 == 0
    ensures -0x80 <= v < 0x80 ==> r == v
  {
    var m := v % 0x100;
    if m < 0x80 then m else m - 0x100
  }

  /** Conversion of an `int` to `size_t`: modulo 2^64. */
  function ToSizeT(v: int): (r: nat)
    ensures r < 0x1_0000_0000_0000_0000
    ensures (r - v) % 0x1_0000_0000_0000_0000 == 0
    ensures 0 <= v ==> (v < 0x1_0000_0000_0000_0000 ==> r == v)
  {
    v % 0x1_0000_0000_0000_0000
  }

  // ---------------------------------------------------------------------
  // std::to_string on non-negative numbers

  function DigitChar(d: nat): (c: char)
    requires d < 10
    ensures IsDigit(c) && c as int - '0' as int == d
  {
    (d + '0' as int) as char
  }

  /** Decimal rendering without leading zeros. */
  function ToString(n: nat): (s: string)
    ensures |s| > 0
    ensures forall i :: 0 <= i < |s| ==> IsDigit(s[i])
  {
    if n < 10 then [DigitChar(n)] else ToString(n / 10) + [DigitChar(n % 10)]
  }

  /** The decimal rendering reads back as the number it renders. */
  lemma {:induction false} ToStringValue(n: nat)
    ensures DigitsValue(ToString(n)) == n
  {
    var s := ToString(n);
    if n >= 10 {
      assert s[..|s| - 1] == ToString(n / 10);
      ToStringValue(n / 10);
    }
  }

  lemma {:induction false} LeadingDigitsOfDigits(ds: string)
    requires forall i :: 0 <= i < |ds| ==> IsDigit(ds[i])
    ensures LeadingDigits(ds) == ds
  {
    if |ds| > 0 {
      LeadingDigitsOfDigits(ds[1..]);
    }
  }

  /** `std::stoi(std::to_string(n))` gives back `n` for every `n` that
      fits in an `int`. */
  lemma StoiToString(n: nat)
    requires n < 0x8000_0000
    ensures Stoi(ToString(n)) == Success(n)
  {
    var s := ToString(n);
    assert SkipSpace(s) == s;
    LeadingDigitsOfDigits(s);
    ToStringValue(n);
  }
}

=== FILE: db.dfy ===
/** The store interface shared by every backend and by the workload: the
    status a store call returns, the name/value field of a row, and the
    string-keyed property bag the whole program is configured from. */
module Db {

  /** One byte of a C++ `std::string` payload. */
  newtype byte = b: int | 0 <= b < 256

  type Bytes = seq<byte>

  /** Record keys and table names are plain strings. */
  type Key = string

  /** The three outcomes a store call reports. */
  datatype Status = OK | NotFound | Error

  /** A named column of a row; a row is an ordered sequence of fields. */
  datatype Field = Field(name: Bytes, value: Bytes)

  function Names(row: seq<Field>): (ns: seq<Bytes>)
    ensures |ns| == |row|
    ensures forall i :: 0 <= i < |row| ==> ns[i] == row[i].name
  {
    if |row| == 0 then [] else [row[0].name] + Names(row[1..])
  }

  /** The property bag: a finite map from property name to value. */
  type Props = map<string, string>

  /** The value of `key`, or `default` when the property is not set. */
  function GetProperty(props: Props, key: string, default: string): string
  {
    if key in props then props[key] else default
  }

  function SetProperty(props: Props, key: string, value: string): Props
  {
    props[key := value]
  }
}

=== FILE: db_wrapper.dfy ===
/** The measuring wrapper every worker's store is wrapped in. Each of the
    five store calls is timed once, and the elapsed time is reported three
    times to the worker's own measurements and three times to the global
    ones: first the call's PASSED or FAILED variant (PASSED exactly when
    the store answered `OK`), then the call's kind, then ALL. The store's
    status is handed back unchanged. `Init`, `Cleanup` and `SetThreadId`
    are passed through and report nothing. The measurements themselves are
    modelled as the sequence of reports they receive. */
module DbWrapper {
  import opened Db
  import opened Ops

  datatype Call =
    | ReadCall | ScanCall | UpdateCall | InsertCall | DeleteCall
    | InitCall | CleanupCall | SetThreadIdCall

  /** The calls that are timed and reported. */
  predicate Measured(c: Call)
  {
    !(c.InitCall? || c.CleanupCall? || c.SetThreadIdCall?)
  }

  function KindOf(c: Call): (k: Kind)
    requires Measured(c)
    ensures k != READMODIFYWRITE
  {
    match c
    case ReadCall => READ
    case ScanCall => SCAN
    case UpdateCall => UPDATE
    case InsertCall => INSERT
    case DeleteCall => DELETE
  }

  datatype Report = Report(op: Operation, elapsed: nat)

  /** The worker's measurements and the global ones. */
  datatype Sinks = Sinks(local: seq<Report>, global: seq<Report>)

  /** How many reports name `op`. */
  function Count(rs: seq<Report>, op: Operation): nat
  {
    if |rs| == 0 then 0
    else Count(rs[..|rs| - 1], op) + (if rs[|rs| - 1].op == op then 1 else 0)
  }

  lemma {:induction false} CountAppend(a: seq<Report>, b: seq<Report>, op: Operation)
    ensures Count(a + b, op) == Count(a, op) + Count(b, op)
    decreases |b|
  {
    if |b| == 0 {
      assert a + b == a;
    } else {
      assert (a + b)[..|a + b| - 1] == a + b[..|b| - 1];
      CountAppend(a, b[..|b| - 1], op);
    }
  }

  lemma CountThree(x: Report, y: Report, z: Report)
    ensures forall op :: Count([x, y, z], op) ==
              (if x.op == op then 1 else 0) + (if y.op == op then 1 else 0) + (if z.op == op then 1 else 0)
  {
    assert [x, y, z][..2] == [x, y];
    assert [x, y][..1] == [x];
    assert [x][..0] == [];
    forall op
      ensures Count([x, y, z], op) ==
                (if x.op == op then 1 else 0) + (if y.op == op then 1 else 0) + (if z.op == op then 1 else 0)
    {
      assert Count([x], op) == (if x.op == op then 1 else 0);
      assert Count([x, y], op) == Count([x], op) + (if y.op == op then 1 else 0);
    }
  }

  /** The three reports of one measured call. */
  function Reports(c: Call, s: Status, elapsed: nat): (rs: seq<Report>)
    requires Measured(c)
    ensures |rs| == 3
    ensures forall i :: 0 <= i < 3 ==> rs[i].elapsed == elapsed
    ensures rs[0].op == (if s == OK then Passed(KindOf(c)) else Failed(KindOf(c)))
    ensures rs[1].op == Base(KindOf(c)) && rs[2].op == All
    ensures Count(rs, All) == 1 && Count(rs, Base(KindOf(c))) == 1
    ensures Count(rs, Passed(KindOf(c))) == (if s == OK then 1 else 0)
    ensures Count(rs, Failed(KindOf(c))) == (if s == OK then 0 else 1)
    ensures forall op :: op != All && op != Base(KindOf(c)) && op != Passed(KindOf(c)) && op != Failed(KindOf(c)) ==>
              Count(rs, op) == 0
  {
    var k := KindOf(c);
    var outcome := Report(if s == OK then Passed(k) else Failed(k), elapsed);
    CountThree(outcome, Report(Base(k), elapsed), Report(All, elapsed));
    [Report(if s == OK then Passed(k) else Failed(k), elapsed), Report(Base(k), elapsed), Report(All, elapsed)]
  }

  /** One wrapped call: `inner` is the wrapped store's status and
      `elapsed` the timer's reading. */
  function Wrapped(c: Call, inner: Status, elapsed: nat, sinks: Sinks): (r: (Status, Sinks))
    ensures r.0 == inner
    ensures !Measured(c) ==> r.1 == sinks
    ensures Measured(c) ==> r.1.local == sinks.local + Reports(c, inner, elapsed)
    ensures Measured(c) ==> r.1.global == sinks.global + Reports(c, inner, elapsed)
  {
    if Measured(c) then
      (inner, Sinks(sinks.local + Reports(c, inner, elapsed), sinks.global + Reports(c, inner, elapsed)))
    else (inner, sinks)
  }

  /** A call as the worker makes it: the call, the store's status and the
      elapsed time. */
  datatype Step = Step(call: Call, status: Status, elapsed: nat)

  /** The sinks after a sequence of wrapped calls. */
  function Run(steps: seq<Step>, sinks: Sinks): Sinks
  {
    if |steps| == 0 then sinks
    else
      var last := steps[|steps| - 1];
      Wrapped(last.call, last.status, last.elapsed, Run(steps[..|steps| - 1], sinks)).1
  }

  /** How many measured calls of kind `k` there were, and how many of them
      the store answered with `OK`. */
  function CallsOf(steps: seq<Step>, k: Kind): nat
  {
    if |steps| == 0 then 0
    else
      var last := steps[|steps| - 1];
      CallsOf(steps[..|steps| - 1], k) + (if Measured(last.call) && KindOf(last.call) == k then 1 else 0)
  }

  function PassedOf(steps: seq<Step>, k: Kind): nat
  {
    if |steps| == 0 then 0
    else
      var last := steps[|steps| - 1];
      PassedOf(steps[..|steps| - 1], k)
        + (if Measured(last.call) && KindOf(last.call) == k && last.status == OK then 1 else 0)
  }

  function MeasuredCount(steps: seq<Step>): nat
  {
    if |steps| == 0 then 0
    else MeasuredCount(steps[..|steps| - 1]) + (if Measured(steps[|steps| - 1].call) then 1 else 0)
  }

  /** Over any run, both sinks receive the same reports; there are three
      per measured call; ALL counts the measured calls; each kind counts
      its calls, PASSED the ones answered `OK`, FAILED the others; and
      READMODIFYWRITE is never reported. */
  lemma RunCounts(steps: seq<Step>, k: Kind)
    ensures Run(steps, Sinks([], [])).local == Run(steps, Sinks([], [])).global
    ensures |Run(steps, Sinks([], [])).local| == 3 * MeasuredCount(steps)
    ensures Count(Run(steps, Sinks([], [])).local, All) == MeasuredCount(steps)
    ensures Count(Run(steps, Sinks([], [])).local, Base(k)) == CallsOf(steps, k)
    ensures Count(Run(steps, Sinks([], [])).local, Passed(k)) == PassedOf(steps, k)
    ensures Count(Run(steps, Sinks([], [])).local, Failed(k)) == CallsOf(steps, k) - PassedOf(steps, k)
    ensures k == READMODIFYWRITE ==>
              Count(Run(steps, Sinks([], [])).local, Base(k)) == 0
              && Count(Run(steps, Sinks([], [])).local, Passed(k)) == 0
              && Count(Run(steps, Sinks([], [])).local, Failed(k)) == 0
  {
    RunShape(steps);
    RunKindCounts(steps, k);
    RunFailedCount(steps, k);
    PassedAtMostCalls(steps, k);
  }

  /** Both sinks see the same reports, three per measured call, one of
      them ALL. */
  lemma {:induction false} RunShape(steps: seq<Step>)
    ensures Run(steps, Sinks([], [])).local == Run(steps, Sinks([], [])).global
    ensures |Run(steps, Sinks([], [])).local| == 3 * MeasuredCount(steps)
    ensures Count(Run(steps, Sinks([], [])).local, All) == MeasuredCount(steps)
    decreases |steps|
  {
    if |steps| > 0 {
      var prefix := steps[..|steps| - 1];
      var last := steps[|steps| - 1];
      RunShape(prefix);
      if Measured(last.call) {
        CountAppend(Run(prefix, Sinks([], [])).local, Reports(last.call, last.status, last.elapsed), All);
      }
    }
  }

  /** Each kind's reports count that kind's calls, and its PASSED
      reports the calls answered `OK`. */
  lemma {:induction false} RunKindCounts(steps: seq<Step>, k: Kind)
    ensures Count(Run(steps, Sinks([], [])).local, Base(k)) == CallsOf(steps, k)
    ensures Count(Run(steps, Sinks([], [])).local, Passed(k)) == PassedOf(steps, k)
    decreases |steps|
  {
    if |steps| > 0 {
      var prefix := steps[..|steps| - 1];
      var last := steps[|steps| - 1];
      RunKindCounts(prefix, k);
      if Measured(last.call) {
        var rs := Reports(last.call, last.status, last.elapsed);
        var before := Run(prefix, Sinks([], [])).local;
        CountAppend(before, rs, Base(k));
        CountAppend(before, rs, Passed(k));
      }
    }
  }

  /** A kind's FAILED reports count its calls not answered `OK`. */
  lemma {:induction false} RunFailedCount(steps: seq<Step>, k: Kind)
    ensures Count(Run(steps, Sinks([], [])).local, Failed(k)) == CallsOf(steps, k) - PassedOf(steps, k)
    decreases |steps|
  {
    if |steps| > 0 {
      var prefix := steps[..|steps| - 1];
      var last := steps[|steps| - 1];
      RunFailedCount(prefix, k);
      PassedAtMostCalls(prefix, k);
      if Measured(last.call) {
        CountAppend(Run(prefix, Sinks([], [])).local, Reports(last.call, last.status, last.elapsed), Failed(k));
      }
    }
  }

  lemma {:induction false} PassedAtMostCalls(steps: seq<Step>, k: Kind)
    ensures PassedOf(steps, k) <= CallsOf(steps, k)
    ensures k == READMODIFYWRITE ==> CallsOf(steps, k) == 0
    decreases |steps|
  {
    if |steps| > 0 {
      PassedAtMostCalls(steps[..|steps| - 1], k);
    }
  }
}

=== FILE: ops.dfy ===
/** The operation kinds a run measures. The enum has a fixed layout: the
    six base kinds first, then each kind's "passed" variant, then each
    kind's "failed" variant, then the catch-all `ALL`, and last the
    `MAXOPTYPE` sentinel, which also counts the named operations. The
    model keeps that structure in the datatype and recovers the C++
    ordinals through `Ordinal`. */
module Ops {
  import opened Wrappers

  datatype Kind = INSERT | READ | UPDATE | SCAN | READMODIFYWRITE | DELETE

  datatype Operation =
    | Base(kind: Kind)
    | Passed(kind: Kind)
    | Failed(kind: Kind)
    | All
    | MaxOpType

  /** The number of base kinds, and the number of named operations (the
      ordinal of the sentinel). */
  const KIND_COUNT: nat := 6
  const MAX_OP_TYPE: nat := 19

  function KindIndex(k: Kind): (n: nat)
    ensures n < KIND_COUNT
  {
    match k
    case INSERT => 0
    case READ => 1
    case UPDATE => 2
    case SCAN => 3
    case READMODIFYWRITE => 4
    case DELETE => 5
  }

  function KindAt(n: nat): Kind
    requires n < KIND_COUNT
  {
    if n == 0 then INSERT
    else if n == 1 then READ
    else if n == 2 then UPDATE
    else if n == 3 then SCAN
    else if n == 4 then READMODIFYWRITE
    else DELETE
  }

  /** The C++ enumerator value of an operation. */
  function Ordinal(op: Operation): (n: nat)
    ensures n <= MAX_OP_TYPE
    ensures n == MAX_OP_TYPE <==> op == MaxOpType
  {
    match op
    case Base(k) => KindIndex(k)
    case Passed(k) => KIND_COUNT + KindIndex(k)
    case Failed(k) => 2 * KIND_COUNT + KindIndex(k)
    case All => 3 * KIND_COUNT
    case MaxOpType => MAX_OP_TYPE
  }

  /** `static_cast<Operation>(n)` for the values the enum names. */
  function OperationAt(n: nat): Option<Operation>
  {
    if n < KIND_COUNT then Some(Base(KindAt(n)))
    else if n < 2 * KIND_COUNT then Some(Passed(KindAt(n - KIND_COUNT)))
    else if n < 3 * KIND_COUNT then Some(Failed(KindAt(n - 2 * KIND_COUNT)))
    else if n == 3 * KIND_COUNT then Some(All)
    else if n == MAX_OP_TYPE then Some(MaxOpType)
    else None
  }

  /** The layout is a bijection between the operations and 0..19: the six
      kinds, then PASSED at +6, FAILED at +12, then ALL = 18 and
      MAXOPTYPE = 19. */
  lemma OrdinalLayout(op: Operation, n: nat)
    ensures OperationAt(Ordinal(op)) == Some(op)
    ensures OperationAt(n).Some? <==> n <= MAX_OP_TYPE
    ensures n <= MAX_OP_TYPE ==> Ordinal(OperationAt(n).value) == n
    ensures op.Passed? ==> Ordinal(op) == Ordinal(Base(op.kind)) + 6
    ensures op.Failed? ==> Ordinal(op) == Ordinal(Base(op.kind)) + 12
    ensures Ordinal(All) == 18 && Ordinal(MaxOpType) == 19
  {
  }

  /** The display name of each named operation, in enum order. */
  const OPERATION_STRING: seq<string> := [
    "INSERT", "READ", "UPDATE", "SCAN", "READMODIFYWRITE", "DELETE",
    "INSERT-PASSED", "READ-PASSED", "UPDATE-PASSED", "SCAN-PASSED",
    "READMODIFYWRITE-PASSED", "DELETE-PASSED",
    "INSERT-FAILED", "READ-FAILED", "UPDATE-FAILED", "SCAN-FAILED",
    "READMODIFYWRITE-FAILED", "DELETE-FAILED",
    "ALL"
  ]

  /** `kOperationString[op]`; the sentinel has no name. */
  function Name(op: Operation): string
    requires op != MaxOpType
  {
    OPERATION_STRING[Ordinal(op)]
  }

  /** Reads a name back; the inverse of `Name`. */
  function Named(s: string): Option<Operation>
  {
    if s == "INSERT" then Some(Base(INSERT))
    else if s == "READ" then Some(Base(READ))
    else if s == "UPDATE" then Some(Base(UPDATE))
    else if s == "SCAN" then Some(Base(SCAN))
    else if s == "READMODIFYWRITE" then Some(Base(READMODIFYWRITE))
    else if s == "DELETE" then Some(Base(DELETE))
    else if s == "INSERT-PASSED" then Some(Passed(INSERT))
    else if s == "READ-PASSED" then Some(Passed(READ))
    else if s == "UPDATE-PASSED" then Some(Passed(UPDATE))
    else if s == "SCAN-PASSED" then Some(Passed(SCAN))
    else if s == "READMODIFYWRITE-PASSED" then Some(Passed(READMODIFYWRITE))
    else if s == "DELETE-PASSED" then Some(Passed(DELETE))
    else if s == "INSERT-FAILED" then Some(Failed(INSERT))
    else if s == "READ-FAILED" then Some(Failed(READ))
    else if s == "UPDATE-FAILED" then Some(Failed(UPDATE))
    else if s == "SCAN-FAILED" then Some(Failed(SCAN))
    else if s == "READMODIFYWRITE-FAILED" then Some(Failed(READMODIFYWRITE))
    else if s == "DELETE-FAILED" then Some(Failed(DELETE))
    else if s == "ALL" then Some(All)
    else None
  }

  /** Every named operation's name reads back as that operation, so the
      nineteen names are pairwise distinct; each variant's name is its
      kind's name with a "-PASSED" or "-FAILED" suffix. */
  lemma NameRoundTrip(op: Operation)
    requires op != MaxOpType
    ensures Named(Name(op)) == Some(op)
    ensures op.Passed? ==> Name(op) == Name(Base(op.kind)) + "-PASSED"
    ensures op.Failed? ==> Name(op) == Name(Base(op.kind)) + "-FAILED"
  {
    match op
    case Base(k) => BaseNameRoundTrip(k);
    case Passed(k) => PassedNameRoundTrip(k);
    case Failed(k) => FailedNameRoundTrip(k);
    case All =>
  }

  lemma BaseNameRoundTrip(k: Kind)
    ensures Named(Name(Base(k))) == Some(Base(k))
  {
    match k
    case INSERT => case READ => case UPDATE => case SCAN => case READMODIFYWRITE => case DELETE =>
  }

  lemma PassedNameRoundTrip(k: Kind)
    ensures Named(Name(Passed(k))) == Some(Passed(k))
    ensures Name(Passed(k)) == Name(Base(k)) + "-PASSED"
  {
    PassedSuffix(k);
    match k
    case INSERT => case READ => case UPDATE => case SCAN => case READMODIFYWRITE => case DELETE =>
  }

  lemma PassedSuffix(k: Kind)
    ensures Name(Passed(k)) == Name(Base(k)) + "-PASSED"
  {
    match k
    case INSERT => assert "INSERT" + "-PASSED" == "INSERT-PASSED";
    case READ => assert "READ" + "-PASSED" == "READ-PASSED";
    case UPDATE => assert "UPDATE" + "-PASSED" == "UPDATE-PASSED";
    case SCAN => assert "SCAN" + "-PASSED" == "SCAN-PASSED";
    case READMODIFYWRITE => assert "READMODIFYWRITE" + "-PASSED" == "READMODIFYWRITE-PASSED";
    case DELETE => assert "DELETE" + "-PASSED" == "DELETE-PASSED";
  }

  lemma FailedNameRoundTrip(k: Kind)
    ensures Named(Name(Failed(k))) == Some(Failed(k))
    ensures Name(Failed(k)) == Name(Base(k)) + "-FAILED"
  {
    FailedSuffix(k);
    match k
    case INSERT => case READ => case UPDATE => case SCAN => case READMODIFYWRITE => case DELETE =>
  }

  lemma FailedSuffix(k: Kind)
    ensures Name(Failed(k)) == Name(Base(k)) + "-FAILED"
  {
    match k
    case INSERT => assert "INSERT" + "-FAILED" == "INSERT-FAILED";
    case READ => assert "READ" + "-FAILED" == "READ-FAILED";
    case UPDATE => assert "UPDATE" + "-FAILED" == "UPDATE-FAILED";
    case SCAN => assert "SCAN" + "-FAILED" == "SCAN-FAILED";
    case READMODIFYWRITE => assert "READMODIFYWRITE" + "-FAILED" == "READMODIFYWRITE-FAILED";
    case DELETE => assert "DELETE" + "-FAILED" == "DELETE-FAILED";
  }

  lemma NamesDistinct(a: Operation, b: Operation)
    requires a != MaxOpType && b != MaxOpType && a != b
    ensures Name(a) != Name(b)
  {
    NameRoundTrip(a);
    NameRoundTrip(b);
  }
}

=== FILE: rocks_options.dfy ===
/** How the RocksDB backend turns `rocksdb.*` properties into engine
    options. When an options file is named, the file alone decides;
    otherwise the compression name must be one of eight known names, each
    numeric knob overrides the engine default only when it differs from its
    "leave alone" value (zero, or -1 for `compaction_pri`), and each switch
    can only be turned on. */
module RocksOptions {
  import opened Wrappers
  import opened Db
  import opened CxxString

  datatype Compression =
    | NoCompression | SnappyCompression | ZlibCompression | BZip2Compression
    | LZ4Compression | LZ4HCCompression | XpressCompression | ZSTD

  /** The property value that selects each compression. */
  function CompressionName(c: Compression): string
  {
    match c
    case NoCompression => "no"
    case SnappyCompression => "snappy"
    case ZlibCompression => "zlib"
    case BZip2Compression => "bzip2"
    case LZ4Compression => "lz4"
    case LZ4HCCompression => "lz4hc"
    case XpressCompression => "xpress"
    case ZSTD => "zstd"
  }

  const COMPRESSION_NAMES: set<string> :=
    {"no", "snappy", "zlib", "bzip2", "lz4", "lz4hc", "xpress", "zstd"}

  /** The compression a property value selects; `None` is the "Unknown
      compression type" exception. */
  function CompressionOf(name: string): Option<Compression>
  {
    if name == "no" then Some(NoCompression)
    else if name == "snappy" then Some(SnappyCompression)
    else if name == "zlib" then Some(ZlibCompression)
    else if name == "bzip2" then Some(BZip2Compression)
    else if name == "lz4" then Some(LZ4Compression)
    else if name == "lz4hc" then Some(LZ4HCCompression)
    else if name == "xpress" then Some(XpressCompression)
    else if name == "zstd" then Some(ZSTD)
    else None
  }

  /** Exactly the eight names are accepted, and each selects the
      compression it names. */
  lemma CompressionOfIsInverse(name: string, c: Compression)
    ensures CompressionOf(name).Some? <==> name in COMPRESSION_NAMES
    ensures CompressionOf(name) == Some(c) <==> name == CompressionName(c)
  {
  }

  // ---------------------------------------------------------------------
  // Options

  /** The C++ type of the engine option a knob is assigned to: `int`, an
      unsigned 64-bit integer (`uint64_t` or `size_t`), or the
      `CompactionPri` enumeration, whose underlying type is `char`. */
  datatype Width = Int32 | UInt64 | CharEnum

  /** The values an option of width `w` can hold. */
  predicate InRange(w: Width, v: int)
  {
    match w
    case Int32 => -0x8000_0000 <= v < 0x8000_0000
    case UInt64 => 0 <= v < 0x1_0000_0000_0000_0000
    case CharEnum => -0x80 <= v < 0x80
  }

  /** The number of values an option of width `w` can hold. */
  function Modulus(w: Width): nat
  {
    match w
    case Int32 => 0x1_0000_0000
    case UInt64 => 0x1_0000_0000_0000_0000
    case CharEnum => 0x100
  }

  /** The value an option of width `w` holds once the `int` `val` is
      assigned to it: the implicit conversion to an unsigned type, or the
      `static_cast` to the enumeration, keeps `val` modulo the width's
      range. */
  function Stored(w: Width, val: int): (r: int)
    ensures InRange(w, r)
    ensures (r - val) % Modulus(w) == 0
    ensures InRange(w, val) ==> r == val
  {
    match w
    case Int32 => ToInt32(val)
    case UInt64 => ToSizeT(val)
    case CharEnum => ToSignedChar(val)
  }

  /** A numeric option: the property it is read from, the property's
      default, whether it is read with `stol` (and narrowed to `int`) rather
      than `stoi`, the value that leaves the engine's setting alone, and the
      type of the option it is assigned to. */
  datatype Knob = Knob(property: string, default: string, wide: bool, keep: int, width: Width)

  /** The numeric options in the order the backend reads them. */
  const KNOBS: seq<Knob> := [
    Knob("rocksdb.max_background_flushes", "1", false, 0, Int32),
    Knob("rocksdb.max_background_compactions", "3", false, 0, Int32),
    Knob("rocksdb.max_background_jobs", "0", false, 0, Int32),
    Knob("rocksdb.target_file_size_base", "0", true, 0, UInt64),
    Knob("rocksdb.target_file_size_multiplier", "0", true, 0, Int32),
    Knob("rocksdb.max_bytes_for_level_base", "0", true, 0, UInt64),
    Knob("rocksdb.write_buffer_size", "0", true, 0, UInt64),
    Knob("rocksdb.max_write_buffer_number", "0", true, 0, Int32),
    Knob("rocksdb.compaction_pri", "-1", true, -1, CharEnum),
    Knob("rocksdb.max_open_files", "-1", true, 0, Int32),
    Knob("rocksdb.level0_file_num_compaction_trigger", "0", true, 0, Int32),
    Knob("rocksdb.level0_slowdown_writes_trigger", "0", true, 0, Int32),
    Knob("rocksdb.level0_stop_writes_trigger", "0", true, 0, Int32)
  ]

  /** The boolean options, in order: direct I/O for flush and compaction,
      direct reads, mmap writes, mmap reads. */
  const SWITCHES: seq<string> := [
    "rocksdb.use_direct_io_for_flush_compaction",
    "rocksdb.use_direct_reads",
    "rocksdb.allow_mmap_writes",
    "rocksdb.allow_mmap_reads"
  ]

  /** The engine options the backend sets: `knobs[i]` is the option of
      `KNOBS[i]`, `switches[i]` the option of `SWITCHES[i]`; the last two
      record whether the two tuning presets were applied. */
  datatype Options = Options(
    compression: Compression,
    knobs: seq<int>,
    switches: seq<bool>,
    increasedParallelism: bool,
    optimizedLevelStyleCompaction: bool)

  predicate WellShaped(o: Options)
  {
    |o.knobs| == |KNOBS| && |o.switches| == |SWITCHES|
  }

  /** The exceptions option parsing throws. */
  datatype OptionsError =
    | LoadOptionsFailed
    | UnknownCompression(name: string)
    | BadNumber(property: string, error: NumberError)

  const OPTIONS_FILE := "rocksdb.optionsfile"
  const COMPRESSION := "rocksdb.compression"
  const BLOOM_BITS := "rocksdb.bloom_bits"
  const INCREASE_PARALLELISM := "rocksdb.increase_parallelism"
  const OPTIMIZE_LEVELCOMP := "rocksdb.optimize_level_style_compaction"

  function CompressionProperty(props: Props): string
  {
    GetProperty(props, COMPRESSION, "no")
  }

  /** The value a knob's property parses to, as the `int` it is kept in. */
  function KnobValue(props: Props, k: Knob): (r: Result<int, OptionsError>)
    ensures r.Success? ==> -0x8000_0000 <= r.value < 0x8000_0000
  {
    var text := GetProperty(props, k.property, k.default);
    match (if k.wide then Stol(text) else Stoi(text))
    case Failure(e) => Failure(BadNumber(k.property, e))
    case Success(v) => Success(ToInt32(v))
  }

  /** An option changes only when the parsed value is not the knob's
      "leave alone" value, and then holds that value as its type keeps it. */
  function Override(current: int, parsed: int, k: Knob): int
  {
    if parsed != k.keep then Stored(k.width, parsed) else current
  }

  /** `rocksdb.bloom_bits` is parsed with `stoul`; the filter policy it
      builds is never installed, so only a parse failure has an effect. */
  function BloomBitsCheck(props: Props): Result<nat, OptionsError>
  {
    match Stoul(GetProperty(props, BLOOM_BITS, "0"))
    case Failure(e) => Failure(BadNumber(BLOOM_BITS, e))
    case Success(v) => Success(v)
  }

  /** The parse of every knob's property, in `KNOBS` order. */
  function KnobValues(props: Props): (vs: seq<Result<int, OptionsError>>)
    ensures |vs| == |KNOBS|
    ensures forall i :: 0 <= i < |KNOBS| ==> vs[i] == KnobValue(props, KNOBS[i])
  {
    seq(|KNOBS|, i requires 0 <= i < |KNOBS| => KnobValue(props, KNOBS[i]))
  }

  /** The setting a parsed knob leaves in an option that held `current`. */
  function Setting(parsed: Result<int, OptionsError>, k: Knob, current: int): int
  {
    match parsed
    case Success(v) => Override(current, v, k)
    case Failure(_) => current
  }

  /** Applies the parsed knobs from position `i` on, in order, to
      `current`; the first knob that did not parse is the exception. */
  function ApplyKnobs(parsed: seq<Result<int, OptionsError>>, current: seq<int>, i: nat)
    : (r: Result<seq<int>, OptionsError>)
    requires |current| == |KNOBS| == |parsed| && i <= |KNOBS|
    ensures r.Failure? <==> exists j :: i <= j < |parsed| && parsed[j].Failure?
    ensures r.Success? ==> |r.value| == |KNOBS|
    ensures r.Success? ==> forall j :: 0 <= j < i ==> r.value[j] == current[j]
    ensures r.Success? ==> forall j :: i <= j < |KNOBS| ==> r.value[j] == Setting(parsed[j], KNOBS[j], current[j])
    decreases |KNOBS| - i
  {
    if i == |KNOBS| then Success(current)
    else
      match parsed[i]
      case Failure(e) => Failure(e)
      case Success(v) => ApplyKnobs(parsed, current[i := Override(current[i], v, KNOBS[i])], i + 1)
  }

  /** Turns on each switch whose property is exactly "true". */
  function ApplySwitches(props: Props, current: seq<bool>): (r: seq<bool>)
    requires |current| <= |SWITCHES|
    ensures |r| == |current|
    ensures forall j :: 0 <= j < |current| ==>
              r[j] == (current[j] || GetProperty(props, SWITCHES[j], "false") == "true")
  {
    seq(|current|, j requires 0 <= j < |current| =>
      current[j] || GetProperty(props, SWITCHES[j], "false") == "true")
  }

  /** The setup after the compression was accepted: the numeric knobs,
      then the switches, the bloom-bits parse and the two presets. */
  function ConfigureRest(props: Props, opt: Options, compression: Compression,
                         parsed: seq<Result<int, OptionsError>>, bloom: Result<nat, OptionsError>)
    : (r: Result<Options, OptionsError>)
    requires WellShaped(opt) && |parsed| == |KNOBS|
    ensures r.Failure? <==> (exists i :: 0 <= i < |KNOBS| && parsed[i].Failure?) || bloom.Failure?
    ensures r.Success? ==> |r.value.knobs| == |KNOBS| && forall i :: 0 <= i < |KNOBS| ==>
              r.value.knobs[i] == Setting(parsed[i], KNOBS[i], opt.knobs[i])
    ensures r.Success? ==> r.value == Finish(props, opt, compression, r.value.knobs)
  {
    match ApplyKnobs(parsed, opt.knobs, 0)
    case Failure(e) => Failure(e)
    case Success(knobs) =>
      if bloom.Failure? then Failure(bloom.error)
      else Success(Finish(props, opt, compression, knobs))
  }

  /** The options once every knob was parsed: the switches and the two
      presets are turned on by properties that read exactly "true". */
  function Finish(props: Props, opt: Options, compression: Compression, knobs: seq<int>): (r: Options)
    requires WellShaped(opt) && |knobs| == |KNOBS|
    ensures WellShaped(r) && r.compression == compression && r.knobs == knobs
    ensures forall i :: 0 <= i < |SWITCHES| ==>
              r.switches[i] == (opt.switches[i] || GetProperty(props, SWITCHES[i], "false") == "true")
    ensures r.increasedParallelism <==>
              opt.increasedParallelism || GetProperty(props, INCREASE_PARALLELISM, "false") == "true"
    ensures r.optimizedLevelStyleCompaction <==>
              opt.optimizedLevelStyleCompaction || GetProperty(props, OPTIMIZE_LEVELCOMP, "false") == "true"
  {
    Options(
      compression, knobs, ApplySwitches(props, opt.switches),
      opt.increasedParallelism || GetProperty(props, INCREASE_PARALLELISM, "false") == "true",
      opt.optimizedLevelStyleCompaction || GetProperty(props, OPTIMIZE_LEVELCOMP, "false") == "true")
  }

  /** The property-driven branch of option setup: compression, then the
      numeric knobs, then the switches, the bloom-bits parse and the two
      presets, each exception ending the setup. */
  function Configure(props: Props, opt: Options): (r: Result<Options, OptionsError>)
    requires WellShaped(opt)
    ensures r.Failure? <==> CompressionOf(CompressionProperty(props)).None?
                            || (exists i :: 0 <= i < |KNOBS| && KnobValues(props)[i].Failure?)
                            || BloomBitsCheck(props).Failure?
    ensures CompressionOf(CompressionProperty(props)).None? ==>
              r == Failure(UnknownCompression(CompressionProperty(props)))
    ensures r.Success? ==> WellShaped(r.value)
    ensures r.Success? ==> Some(r.value.compression) == CompressionOf(CompressionProperty(props))
    ensures r.Success? ==> forall i :: 0 <= i < |KNOBS| ==>
              r.value.knobs[i] == Setting(KnobValues(props)[i], KNOBS[i], opt.knobs[i])
    ensures r.Success? ==> forall i :: 0 <= i < |SWITCHES| ==>
              r.value.switches[i] == (opt.switches[i] || GetProperty(props, SWITCHES[i], "false") == "true")
    ensures r.Success? ==>
              (r.value.increasedParallelism <==>
                 opt.increasedParallelism || GetProperty(props, INCREASE_PARALLELISM, "false") == "true")
    ensures r.Success? ==>
              (r.value.optimizedLevelStyleCompaction <==>
                 opt.optimizedLevelStyleCompaction || GetProperty(props, OPTIMIZE_LEVELCOMP, "false") == "true")
  {
    var name := CompressionProperty(props);
    match CompressionOf(name)
    case None => Failure(UnknownCompression(name))
    case Some(compression) => ConfigureRest(props, opt, compression, KnobValues(props), BloomBitsCheck(props))
  }

  /** Option setup: a named options file decides everything (`loaded`
      stands for what loading it yields, `None` when loading fails);
      otherwise the properties do. */
  function GetOptions(props: Props, opt: Options, loaded: Option<Options>): (r: Result<Options, OptionsError>)
    requires WellShaped(opt)
    ensures GetProperty(props, OPTIONS_FILE, "") != "" ==>
              (r.Success? <==> loaded.Some?) && (r.Success? ==> r.value == loaded.value)
    ensures GetProperty(props, OPTIONS_FILE, "") == "" ==> r == Configure(props, opt)
  {
    if GetProperty(props, OPTIONS_FILE, "") != "" then
      (if loaded.Some? then Success(loaded.value) else Failure(LoadOptionsFailed))
    else Configure(props, opt)
  }

  // ---------------------------------------------------------------------
  // Properties

  /** A knob applied to the option it already set leaves it alone. */
  lemma SettingTwice(parsed: Result<int, OptionsError>, k: Knob, current: int)
    ensures Setting(parsed, k, Setting(parsed, k, current)) == Setting(parsed, k, current)
  {
  }

  /** Knobs applied twice to a sequence of options leave what they left
      once. */
  lemma KnobsTwice(parsed: seq<Result<int, OptionsError>>, a: seq<int>, b: seq<int>, c: seq<int>)
    requires |parsed| == |a| == |b| == |c| == |KNOBS|
    requires forall i :: 0 <= i < |KNOBS| ==> b[i] == Setting(parsed[i], KNOBS[i], a[i])
    requires forall i :: 0 <= i < |KNOBS| ==> c[i] == Setting(parsed[i], KNOBS[i], b[i])
    ensures c == b
  {
    forall i | 0 <= i < |KNOBS|
      ensures c[i] == b[i]
    {
      SettingTwice(parsed[i], KNOBS[i], a[i]);
    }
  }

  /** Switches turned on twice by the same properties are where they were
      after once. */
  lemma SwitchesTwice(on: seq<bool>, a: seq<bool>, b: seq<bool>, c: seq<bool>)
    requires |on| == |a| == |b| == |c|
    requires forall i :: 0 <= i < |a| ==> b[i] == (a[i] || on[i])
    requires forall i :: 0 <= i < |a| ==> c[i] == (b[i] || on[i])
    ensures c == b
  {
  }

  /** Option setup is idempotent: setting up the options again from the
      same properties changes nothing, since every knob, switch and preset
      already holds what the properties ask for. */
  lemma ConfigureIdempotent(props: Props, opt: Options)
    requires WellShaped(opt) && Configure(props, opt).Success?
    ensures Configure(props, Configure(props, opt).value) == Configure(props, opt)
  {
    var o := Configure(props, opt).value;
    var again := Configure(props, o);
    assert again.Success?;
    KnobsTwice(KnobValues(props), opt.knobs, o.knobs, again.value.knobs);
    var on := seq(|SWITCHES|, i requires 0 <= i < |SWITCHES| => GetProperty(props, SWITCHES[i], "false") == "true");
    SwitchesTwice(on, opt.switches, o.switches, again.value.switches);
  }

  /** What the conversion to each width does to an `int`. */
  lemma StoredWraps(w: Width, v: int)
    requires InRange(Int32, v)
    ensures w == Int32 ==> Stored(w, v) == v
    ensures w == UInt64 ==> Stored(w, v) == if v < 0 then v + 0x1_0000_0000_0000_0000 else v
    ensures w == CharEnum ==> Stored(w, v) == ToSignedChar(v)
  {
    if w == UInt64 && v < 0 {
      assert ToSizeT(v) == v + 0x1_0000_0000_0000_0000;
    }
  }

  /** An option a knob overrides holds the parsed value as the option's C++
      type keeps it: an `int` option the value itself, an unsigned option a
      negative value wrapped by 2^64, the compaction priority its low byte
      as a signed `char`. */
  lemma ConfiguredKnobWraps(props: Props, opt: Options, i: nat, v: int)
    requires WellShaped(opt) && Configure(props, opt).Success?
    requires i < |KNOBS| && KnobValues(props)[i] == Success(v) && v != KNOBS[i].keep
    ensures InRange(KNOBS[i].width, Configure(props, opt).value.knobs[i])
    ensures KNOBS[i].width == Int32 ==> Configure(props, opt).value.knobs[i] == v
    ensures KNOBS[i].width == UInt64 ==>
              Configure(props, opt).value.knobs[i] == if v < 0 then v + 0x1_0000_0000_0000_0000 else v
    ensures KNOBS[i].width == CharEnum ==> Configure(props, opt).value.knobs[i] == ToSignedChar(v)
  {
    var k := KNOBS[i];
    assert Configure(props, opt).value.knobs[i] == Stored(k.width, v);
    StoredWraps(k.width, v);
  }

  lemma ParseSmallLiteral(d: nat)
    requires d < 10
    ensures ParseInteger([DigitChar(d)]) == Some(d)
    ensures ParseInteger(['-', DigitChar(d)]) == Some(0 - d)
  {
    var s := [DigitChar(d)];
    assert SkipSpace(s) == s;
    assert LeadingDigits(s) == s by {
      assert s[1..] == [];
    }
    assert DigitsValue(s) == d by {
      assert s[..0] == [];
    }
    var t := ['-', DigitChar(d)];
    assert SkipSpace(t) == t;
    assert t[1..] == s;
  }

  /** The literals the knob defaults are written with. */
  lemma DefaultLiterals()
    ensures Stoi("0") == Success(0) && Stoi("1") == Success(1) && Stoi("3") == Success(3)
    ensures Stol("0") == Success(0) && Stol("-1") == Success(-1)
  {
    ParseSmallLiteral(0);
    ParseSmallLiteral(1);
    ParseSmallLiteral(3);
    assert "0" == [DigitChar(0)];
    assert "1" == [DigitChar(1)];
    assert "3" == [DigitChar(3)];
    assert "-1" == ['-', DigitChar(1)];
  }

  /** The default, width and "leave alone" value of each knob. */
  lemma KnobShape(i: nat)
    requires i < |KNOBS|
    ensures KNOBS[i].default == (if i == 0 then "1" else if i == 1 then "3" else if i == 8 || i == 9 then "-1" else "0")
    ensures KNOBS[i].wide == (i >= 3)
    ensures KNOBS[i].keep == (if i == 8 then -1 else 0)
    ensures KNOBS[i].width == (if i in {3, 5, 6} then UInt64 else if i == 8 then CharEnum else Int32)
  {
  }

  /** The value each knob takes from its default when its property is not
      set. */
  lemma DefaultKnob(i: nat)
    requires i < |KNOBS|
    ensures KnobValue(map[], KNOBS[i]) ==
              Success(if i == 0 then 1 else if i == 1 then 3 else if i == 8 || i == 9 then -1 else 0)
    ensures KNOBS[i].keep == (if i == 8 then -1 else 0)
  {
    KnobShape(i);
    DefaultLiterals();
    var k := KNOBS[i];
    assert GetProperty(map[], k.property, k.default) == k.default;
    if i == 0 {
      assert KnobValue(map[], k) == Success(ToInt32(1));
    } else if i == 1 {
      assert KnobValue(map[], k) == Success(ToInt32(3));
    } else if i == 2 {
      assert KnobValue(map[], k) == Success(ToInt32(0));
    } else if i == 8 || i == 9 {
      assert KnobValue(map[], k) == Success(ToInt32(-1));
    } else {
      assert KnobValue(map[], k) == Success(ToInt32(0));
    }
  }

  /** With no properties at all, compression is off, the flush and
      compaction thread counts become 1 and 3, `max_open_files` becomes -1,
      and every other knob keeps the engine's value. */
  lemma DefaultProperties(opt: Options)
    requires WellShaped(opt)
    ensures KnobValue(map[], KNOBS[0]) == Success(1)
    ensures KnobValue(map[], KNOBS[1]) == Success(3)
    ensures KnobValue(map[], KNOBS[9]) == Success(-1)
    ensures forall i :: 0 <= i < |KNOBS| && i != 0 && i != 1 && i != 9 ==>
              Setting(KnobValues(map[])[i], KNOBS[i], opt.knobs[i]) == opt.knobs[i]
    ensures CompressionOf(CompressionProperty(map[])) == Some(NoCompression)
  {
    DefaultKnob(0);
    DefaultKnob(1);
    DefaultKnob(9);
    forall i | 0 <= i < |KNOBS| && i != 0 && i != 1 && i != 9
      ensures Setting(KnobValues(map[])[i], KNOBS[i], opt.knobs[i]) == opt.knobs[i]
    {
      DefaultKnob(i);
    }
  }
}

=== FILE: rocksdb.dfy ===
/** The RocksDB backend over an abstract key/value store: every key holds
    one encoded row. Reads decode the stored row (all fields, or the fields
    a name list asks for), writes store freshly encoded rows, an update is a
    field merge that keeps the stored row's names and order, and the single
    process-wide engine handle is shared through a reference count. */
module RocksDb {
  import opened Wrappers
  import opened Db
  import opened RowCodec
  import opened RocksOptions

  /** What the engine holds: key to encoded row. */
  type Table = map<Key, Bytes>

  /** The row stored under `key` decodes (the backend's decoder has no
      error path: on a malformed row it reads past its buffer). */
  predicate Readable(t: Table, key: Key)
  {
    key in t ==> Decode(t[key]).Some?
  }

  /** Every stored row decodes. */
  predicate WellFormed(t: Table)
  {
    forall k :: k in t ==> Decode(t[k]).Some?
  }

  /** The row a read of a present key delivers: every field, or the
      greedy in-order match of the requested names. */
  function Project(row: seq<Field>, fields: Option<seq<Bytes>>): seq<Field>
  {
    match fields
    case None => row
    case Some(names) => Greedy(row, names)
  }

  datatype ReadReply = ReadReply(status: Status, row: seq<Field>)

  // ---------------------------------------------------------------------
  // Read, Insert, Delete

  /** `Read`: `NotFound` for an absent key; otherwise `OK` with the stored
      row, filtered when a name list is given. */
  function Read(t: Table, key: Key, fields: Option<seq<Bytes>>): (r: ReadReply)
    requires Readable(t, key)
    ensures r.status == NotFound <==> key !in t
    ensures r.status != Error
    ensures key !in t ==> r.row == []
    ensures key in t ==> r.row == Project(Decode(t[key]).value, fields)
    ensures key in t && fields.Some? ==> |r.row| <= |fields.value|
    ensures key in t && fields.Some? ==>
              (|r.row| == |fields.value| <==> IsSubseq(fields.value, Names(Decode(t[key]).value)))
  {
    if key !in t then ReadReply(NotFound, [])
    else
      match fields
      case None => ReadReply(OK, Decode(t[key]).value)
      case Some(names) =>
        DecodeFilterIsGreedy(t[key], names);
        GreedyCompleteIffSubseq(Decode(t[key]).value, names);
        ReadReply(OK, DecodeFilter(t[key], names).value)
  }

  /** `Insert`: stores the encoded row under `key`, replacing whatever was
      there, and reports `OK`. */
  function Insert(t: Table, key: Key, values: seq<Field>): (r: (Status, Table))
    ensures r.0 == OK
    ensures key in r.1 && r.1[key] == Encode(values)
    ensures r.1.Keys == t.Keys + {key}
    ensures forall k :: k in t && k != key ==> r.1[k] == t[k]
  {
    (OK, t[key := Encode(values)])
  }

  /** `Delete`: removes `key` (present or not) and reports `OK`. */
  function Delete(t: Table, key: Key): (r: (Status, Table))
    ensures r.0 == OK
    ensures r.1.Keys == t.Keys - {key}
    ensures forall k :: k in r.1 ==> r.1[k] == t[k]
  {
    (OK, t - {key})
  }

  // ---------------------------------------------------------------------
  // Update: the field merge

  /** `i` is the first position of `row` holding a field named `name`. */
  predicate IsFirstNamed(row: seq<Field>, i: int, name: Bytes)
  {
    0 <= i < |row| && row[i].name == name && forall j :: 0 <= j < i ==> row[j].name != name
  }

  /** One step of the merge: the first field named like `f` takes `f`'s
      value; a row without such a field is left as it is. */
  function SetFirst(row: seq<Field>, f: Field): (r: seq<Field>)
    ensures |r| == |row|
    ensures forall i :: 0 <= i < |row| ==>
              r[i] == (if IsFirstNamed(row, i, f.name) then Field(row[i].name, f.value) else row[i])
  {
    if |row| == 0 then []
    else if row[0].name == f.name then [Field(row[0].name, f.value)] + row[1..]
    else
      var rest := SetFirst(row[1..], f);
      assert forall i :: 1 <= i < |row| ==> (IsFirstNamed(row, i, f.name) <==> IsFirstNamed(row[1..], i - 1, f.name));
      [row[0]] + rest
  }

  /** The merge the backend performs: the new fields are applied in order,
      each to the row the previous ones left. */
  function Merge(row: seq<Field>, updates: seq<Field>): (r: seq<Field>)
    ensures |r| == |row|
    ensures Names(r) == Names(row)
    decreases |updates|
  {
    if |updates| == 0 then row
    else SetFirst(Merge(row, updates[..|updates| - 1]), updates[|updates| - 1])
  }

  /** The value of the last field of `updates` named `name`, or `default`
      when none is. */
  function LastValue(updates: seq<Field>, name: Bytes, default: Bytes): Bytes
  {
    if |updates| == 0 then default
    else if updates[|updates| - 1].name == name then updates[|updates| - 1].value
    else LastValue(updates[..|updates| - 1], name, default)
  }

  /** The merged row field by field: the first field of each name takes the
      value of the last update of that name; every other field, and every
      field no update names, is kept. */
  lemma {:induction false} MergeSpec(row: seq<Field>, updates: seq<Field>, i: int)
    requires 0 <= i < |row|
    ensures Merge(row, updates)[i] ==
              if IsFirstNamed(row, i, row[i].name)
              then Field(row[i].name, LastValue(updates, row[i].name, row[i].value))
              else row[i]
    decreases |updates|
  {
    if |updates| > 0 {
      var prev := Merge(row, updates[..|updates| - 1]);
      var u := updates[|updates| - 1];
      MergeSpec(row, updates[..|updates| - 1], i);
      assert Names(prev) == Names(row);
      assert forall j :: 0 <= j < |row| ==> prev[j].name == row[j].name by {
        forall j | 0 <= j < |row| ensures prev[j].name == row[j].name {
          assert Names(prev)[j] == Names(row)[j];
        }
      }
      assert IsFirstNamed(prev, i, u.name) <==> IsFirstNamed(row, i, u.name);
    }
  }

  /** An update whose names all occur in the row rewrites exactly those
      values; names it does not mention keep theirs. */
  lemma MergeUntouched(row: seq<Field>, updates: seq<Field>, i: int)
    requires 0 <= i < |row|
    requires forall j :: 0 <= j < |updates| ==> updates[j].name != row[i].name
    ensures Merge(row, updates)[i] == row[i]
  {
    MergeSpec(row, updates, i);
    LastValueAbsent(updates, row[i].name, row[i].value);
  }

  lemma {:induction false} LastValueAbsent(updates: seq<Field>, name: Bytes, default: Bytes)
    requires forall j :: 0 <= j < |updates| ==> updates[j].name != name
    ensures LastValue(updates, name, default) == default
  {
    if |updates| > 0 {
      LastValueAbsent(updates[..|updates| - 1], name, default);
    }
  }

  /** The merged row still fits the length prefixes when the row and the
      new fields do. */
  lemma {:induction false} MergeFits(row: seq<Field>, updates: seq<Field>)
    requires Fits(row) && Fits(updates)
    ensures Fits(Merge(row, updates))
    decreases |updates|
  {
    if |updates| > 0 {
      MergeFits(row, updates[..|updates| - 1]);
    }
  }

  /** The inner loop of the backend's merge: the first current field
      named like `f` takes its value and the search stops. */
  method AssignFirst(row: seq<Field>, f: Field) returns (r: seq<Field>)
    ensures r == SetFirst(row, f)
  {
    for j := 0 to |row|
      invariant forall k :: 0 <= k < j ==> row[k].name != f.name
    {
      if row[j].name == f.name {
        r := row[j := Field(row[j].name, f.value)];
        assert forall k :: 0 <= k < |r| ==> r[k] == SetFirst(row, f)[k];
        return;
      }
    }
    r := row;
    assert forall k :: 0 <= k < |r| ==> r[k] == SetFirst(row, f)[k];
  }

  /** The backend's nested loops: for each new field, the first current
      field of that name takes its value (the `found` assertion is compiled
      out, so a name the row lacks is skipped). */
  method MergeFields(current: seq<Field>, values: seq<Field>) returns (r: seq<Field>)
    ensures r == Merge(current, values)
  {
    r := current;
    for n := 0 to |values|
      invariant r == Merge(current, values[..n])
    {
      r := AssignFirst(r, values[n]);
      assert values[..n + 1][..n] == values[..n];
    }
    assert values[..|values|] == values;
  }

  /** `Update`: `NotFound` for an absent key (nothing written); otherwise
      the stored row is replaced by its merge with the new fields and the
      result is `OK`. */
  function Update(t: Table, key: Key, values: seq<Field>): (r: (Status, Table))
    requires Readable(t, key)
    ensures key !in t ==> r == (NotFound, t)
    ensures key in t ==> r.0 == OK && r.1.Keys == t.Keys
    ensures key in t ==> r.1[key] == Encode(Merge(Decode(t[key]).value, values))
    ensures forall k :: k in t && k != key ==> r.1[k] == t[k]
  {
    if key !in t then (NotFound, t)
    else (OK, t[key := Encode(Merge(Decode(t[key]).value, values))])
  }

  // ---------------------------------------------------------------------
  // Reading back what was written

  /** A read after an insert returns the inserted row; other keys read as
      before. */
  lemma ReadAfterInsert(t: Table, key: Key, values: seq<Field>, other: Key, fields: Option<seq<Bytes>>)
    requires Fits(values)
    requires other != key ==> Readable(t, other)
    ensures Readable(Insert(t, key, values).1, key)
            && Read(Insert(t, key, values).1, key, None) == ReadReply(OK, values)
    ensures other != key ==> Read(Insert(t, key, values).1, other, fields) == Read(t, other, fields)
  {
    DecodeEncode(values);
  }

  /** A read after a delete finds nothing; other keys read as before. */
  lemma ReadAfterDelete(t: Table, key: Key, other: Key, fields: Option<seq<Bytes>>)
    requires other != key ==> Readable(t, other)
    ensures Read(Delete(t, key).1, key, fields) == ReadReply(NotFound, [])
    ensures other != key ==> Read(Delete(t, key).1, other, fields) == Read(t, other, fields)
  {
  }

  /** A read after an update of a present key sees the old names in the old
      order, with the merged values. */
  lemma ReadAfterUpdate(t: Table, key: Key, values: seq<Field>)
    requires key in t && Readable(t, key)
    requires Fits(Decode(t[key]).value) && Fits(values)
    ensures Readable(Update(t, key, values).1, key)
            && Read(Update(t, key, values).1, key, None) == ReadReply(OK, Merge(Decode(t[key]).value, values))
  {
    var merged := Merge(Decode(t[key]).value, values);
    MergeFits(Decode(t[key]).value, values);
    DecodeEncode(merged);
    assert Update(t, key, values).1[key] == Encode(merged);
  }

  /** Writes of rows that fit keep every stored row decodable. */
  lemma WritesKeepWellFormed(t: Table, key: Key, values: seq<Field>)
    requires WellFormed(t) && Fits(values)
    requires forall k :: k in t ==> Fits(Decode(t[k]).value)
    ensures WellFormed(Insert(t, key, values).1)
    ensures WellFormed(Update(t, key, values).1)
    ensures WellFormed(Delete(t, key).1)
  {
    DecodeEncode(values);
    if key in t {
      MergeFits(Decode(t[key]).value, values);
      DecodeEncode(Merge(Decode(t[key]).value, values));
    }
  }

  // ---------------------------------------------------------------------
  // Scan

  /** `Scan`: `order` is the sequence of keys the engine's iterator visits
      from the seek key on. At most `len` rows are read, each as `Read`
      would deliver it, and the status is always `OK`. */
  method Scan(t: Table, order: seq<Key>, len: int, fields: Option<seq<Bytes>>)
    returns (status: Status, rows: seq<seq<Field>>)
    requires forall i :: 0 <= i < |order| ==> order[i] in t && Readable(t, order[i])
    ensures status == OK
    ensures |rows| == if len <= 0 then 0 else if len < |order| then len else |order|
    ensures forall i :: 0 <= i < |rows| ==> rows[i] == Read(t, order[i], fields).row
  {
    rows := [];
    var i := 0;
    while i < |order| && i < len
      invariant 0 <= i <= |order|
      invariant len <= 0 ==> i == 0
      invariant len > 0 ==> i <= len
      invariant |rows| == i
      invariant forall j :: 0 <= j < i ==> rows[j] == Read(t, order[j], fields).row
    {
      var data := t[order[i]];
      var row: Option<seq<Field>>;
      match fields {
        case None =>
          row := DeserializeRow([], data);
        case Some(names) =>
          DecodeFilterIsGreedy(data, names);
          row := DeserializeRowFilter([], data, names);
      }
      rows := rows + [row.value];
      i := i + 1;
    }
    status := OK;
  }

  // ---------------------------------------------------------------------
  // The shared engine handle

  /** The process-wide handle: never opened (null), open, or deleted but
      still set (`db_` is not reset to null after `delete`). */
  datatype Handle = Closed | Opened | Deleted

  /** The state every backend instance shares: the reference count, the
      handle, and the engine's contents. */
  datatype Shared = Shared(refs: int, handle: Handle, table: Table)

  datatype InitError = MissingPath | BadOptions(error: OptionsError) | DestroyFailed | OpenFailed

  /** What `Init` leaves behind: the shared state and the exception it
      threw, if any. */
  datatype InitOutcome = InitOutcome(state: Shared, error: Option<InitError>)

  const DB_NAME := "rocksdb.dbname"
  const DESTROY := "rocksdb.destroy"

  /** Opening the engine, after the path check: option setup, the optional
      destroy, then the open. `disk` is what the engine finds at the path;
      `destroyOk` and `openOk` stand for the engine's answers. */
  function OpenEngine(props: Props, opt: Options, loaded: Option<Options>, disk: Table,
                      destroyOk: bool, openOk: bool): (r: Result<Table, InitError>)
    requires WellShaped(opt)
    ensures GetOptions(props, opt, loaded).Failure? ==>
              r == Failure(BadOptions(GetOptions(props, opt, loaded).error))
    ensures r.Success? <==> GetOptions(props, opt, loaded).Success?
                            && (GetProperty(props, DESTROY, "false") == "true" ==> destroyOk) && openOk
    ensures r.Success? ==> r.value == if GetProperty(props, DESTROY, "false") == "true" then map[] else disk
  {
    match GetOptions(props, opt, loaded)
    case Failure(e) => Failure(BadOptions(e))
    case Success(_) =>
      var destroy := GetProperty(props, DESTROY, "false") == "true";
      if destroy && !destroyOk then Failure(DestroyFailed)
      else if !openOk then Failure(OpenFailed)
      else Success(if destroy then map[] else disk)
  }

  /** `Init`: the count goes up on every call, even one that then throws;
      only a call that finds no handle opens the engine. */
  function Init(s: Shared, props: Props, opt: Options, loaded: Option<Options>, disk: Table,
                destroyOk: bool, openOk: bool): (r: InitOutcome)
    requires WellShaped(opt)
    ensures r.state.refs == s.refs + 1
    ensures s.handle != Closed ==> r == InitOutcome(Shared(s.refs + 1, s.handle, s.table), None)
    ensures s.handle == Closed && GetProperty(props, DB_NAME, "") == "" ==>
              r.error == Some(MissingPath)
    ensures r.error.Some? ==> r.state.handle == Closed && r.state.table == s.table
    ensures r.error.None? ==> r.state.handle != Closed
    ensures s.handle == Closed && r.error.None? ==>
              r.state.handle == Opened && GetProperty(props, DB_NAME, "") != ""
    ensures s.handle == Closed && GetProperty(props, DB_NAME, "") != "" ==>
              var engine := OpenEngine(props, opt, loaded, disk, destroyOk, openOk);
              (r.error.None? <==> engine.Success?)
              && (engine.Success? ==> r.state.table == engine.value)
              && (engine.Failure? ==> r.error == Some(engine.error))
  {
    var s' := s.(refs := s.refs + 1);
    if s.handle != Closed then InitOutcome(s', None)
    else if GetProperty(props, DB_NAME, "") == "" then InitOutcome(s', Some(MissingPath))
    else
      match OpenEngine(props, opt, loaded, disk, destroyOk, openOk)
      case Failure(e) => InitOutcome(s', Some(e))
      case Success(t) => InitOutcome(s'.(handle := Opened, table := t), None)
  }

  /** `Cleanup`: the count goes down, and the engine is deleted only when
      it reaches zero; the handle is then left dangling. Deleting a handle
      that is already deleted is undefined, hence the precondition. */
  function Cleanup(s: Shared): (r: Shared)
    requires s.refs == 1 ==> s.handle != Deleted
    ensures r.refs == s.refs - 1 && r.table == s.table
    ensures r.handle == Deleted <==> s.handle == Deleted || (s.handle == Opened && s.refs == 1)
    ensures s.refs != 1 ==> r.handle == s.handle
  {
    if s.refs - 1 != 0 then s.(refs := s.refs - 1)
    else s.(refs := 0, handle := if s.handle == Opened then Deleted else s.handle)
  }

  /** `n` successive cleanups. */
  function Cleanups(s: Shared, n: nat): Shared
    requires n > 0 ==> s.handle != Deleted && n <= s.refs
    decreases n
  {
    if n == 0 then s
    else Cleanups(Cleanup(s), n - 1)
  }

  /** With the engine open and `refs` users, the engine stays open through
      every cleanup but the last, and the last one deletes it. */
  lemma {:induction false} CleanupsBalance(s: Shared, n: nat)
    requires s.handle == Opened && n <= s.refs
    ensures Cleanups(s, n).refs == s.refs - n
    ensures Cleanups(s, n).handle == if n == s.refs && n > 0 then Deleted else Opened
    decreases n
  {
    if n > 0 && s.refs > 1 {
      CleanupsBalance(Cleanup(s), n - 1);
    }
  }

  /** Once deleted, the handle is never reopened: a later `Init` only
      counts. */
  lemma InitAfterDelete(s: Shared, props: Props, opt: Options, loaded: Option<Options>, disk: Table,
                        destroyOk: bool, openOk: bool)
    requires WellShaped(opt) && s.handle == Deleted
    ensures Init(s, props, opt, loaded, disk, destroyOk, openOk).state.handle == Deleted
  {
  }
}

=== FILE: row_codec.dfy ===
/** The row format of the RocksDB backend: a row is the concatenation of
    its fields, each written as a 4-byte length, the name bytes, a 4-byte
    length and the value bytes. The length is the field's `size()` stored in
    a `uint32_t`, so it is taken modulo 2^32; the byte order is the host's,
    fixed here to little-endian.

    `Encode`, `Decode` and `DecodeFilter` are the reference definitions;
    `SerializeRow`, `DeserializeRow` and `DeserializeRowFilter` are the
    loops of the backend that walk the bytes by offset, proved to compute them. */
module RowCodec {
  import opened Wrappers
  import opened Db

  /** Lengths are stored in a `uint32_t`. */
  const LEN_BOUND: nat := 0x1_0000_0000

  // ---------------------------------------------------------------------
  // Length prefix

  /** 256 to the power `width`: the number of values `width` bytes hold. */
  function Pow256(width: nat): (p: nat)
    ensures p > 0
  {
    if width == 0 then 1 else 256 * Pow256(width - 1)
  }

  /** The `width` low-order bytes of `n`, least significant first. */
  function LittleEndian(n: nat, width: nat): (r: Bytes)
    ensures |r| == width
  {
    if width == 0 then [] else [(n % 256) as byte] + LittleEndian(n / 256, width - 1)
  }

  /** The number the bytes of `b` spell, least significant first. */
  function LittleEndianValue(b: Bytes): (n: nat)
    ensures n < Pow256(|b|)
  {
    if |b| == 0 then 0 else b[0] as nat + 256 * LittleEndianValue(b[1..])
  }

  /** Reading back `width` bytes gives the number when it fits in them. */
  lemma {:induction false} LittleEndianRoundTrip(n: nat, width: nat)
    requires n < Pow256(width)
    ensures LittleEndianValue(LittleEndian(n, width)) == n
  {
    if width > 0 {
      LittleEndianRoundTrip(n / 256, width - 1);
      assert LittleEndian(n, width)[1..] == LittleEndian(n / 256, width - 1);
    }
  }

  /** The four little-endian bytes of a 32-bit length. */
  function U32Bytes(n: nat): (r: Bytes)
    requires n < LEN_BOUND
    ensures |r| == 4
  {
    LittleEndian(n, 4)
  }

  /** The 32-bit length held in the first four bytes of `b`. */
  function U32Value(b: Bytes): (n: nat)
    requires |b| >= 4
    ensures n < LEN_BOUND
  {
    assert Pow256(4) == LEN_BOUND;
    LittleEndianValue(b[..4])
  }

  lemma U32RoundTrip(n: nat)
    requires n < LEN_BOUND
    ensures U32Value(U32Bytes(n)) == n
  {
    assert Pow256(4) == LEN_BOUND;
    LittleEndianRoundTrip(n, 4);
    assert U32Bytes(n)[..4] == U32Bytes(n);
  }

  /** What the backend writes before a name or value: its size as a
      `uint32_t`. */
  function LengthPrefix(s: Bytes): (r: Bytes)
    ensures |r| == 4
  {
    U32Bytes(|s| % LEN_BOUND)
  }

  // ---------------------------------------------------------------------
  // Encoding

  function EncodeField(f: Field): (r: Bytes)
    ensures |r| == 8 + |f.name| + |f.value|
  {
    LengthPrefix(f.name) + f.name + LengthPrefix(f.value) + f.value
  }

  function Encode(row: seq<Field>): Bytes
  {
    if |row| == 0 then [] else EncodeField(row[0]) + Encode(row[1..])
  }

  /** The number of bytes a row occupies: eight per field plus the
      payload. */
  function EncodedSize(row: seq<Field>): nat
  {
    if |row| == 0 then 0 else 8 + |row[0].name| + |row[0].value| + EncodedSize(row[1..])
  }

  /** Every name and value is short enough for its length to survive the
      `uint32_t` prefix. */
  predicate Fits(row: seq<Field>)
  {
    forall i :: 0 <= i < |row| ==> |row[i].name| < LEN_BOUND && |row[i].value| < LEN_BOUND
  }

  lemma {:induction false} EncodeLength(row: seq<Field>)
    ensures |Encode(row)| == EncodedSize(row)
  {
    if |row| > 0 {
      EncodeLength(row[1..]);
    }
  }

  /** Encoding distributes over concatenation of rows. */
  lemma {:induction false} EncodeAppend(a: seq<Field>, b: seq<Field>)
    ensures Encode(a + b) == Encode(a) + Encode(b)
  {
    if |a| == 0 {
      assert a + b == b;
    } else {
      assert (a + b)[1..] == a[1..] + b;
      EncodeAppend(a[1..], b);
    }
  }

  // ---------------------------------------------------------------------
  // Decoding

  /** Reads one field at the start of `data`, answering the field and the
      number of bytes it took; `None` when the lengths run past the end,
      where the backend would read beyond its buffer. */
  function DecodeField(data: Bytes): (r: Option<(Field, nat)>)
    ensures r.Some? ==> 8 <= r.value.1 <= |data|
    ensures r.Some? ==> r.value.1 == 8 + |r.value.0.name| + |r.value.0.value|
  {
    if |data| < 4 then None
    else
      var nameLen := U32Value(data[..4]);
      if |data| < 8 + nameLen then None
      else
        var valueLen := U32Value(data[4 + nameLen .. 8 + nameLen]);
        if |data| < 8 + nameLen + valueLen then None
        else
          Some((Field(data[4 .. 4 + nameLen], data[8 + nameLen .. 8 + nameLen + valueLen]),
                8 + nameLen + valueLen))
  }

  function Prepend(f: Field, rest: Option<seq<Field>>): Option<seq<Field>>
  {
    match rest
    case None => None
    case Some(fs) => Some([f] + fs)
  }

  /** The whole row held in `data`; `None` for malformed data. */
  function Decode(data: Bytes): Option<seq<Field>>
    decreases |data|
  {
    if |data| == 0 then Some([])
    else
      match DecodeField(data)
      case None => None
      case Some((f, n)) => Prepend(f, Decode(data[n..]))
  }

  /** The fields whose names match `names` in order: a field is kept when
      its name equals the next wanted name, and decoding stops once every
      wanted name has been matched. */
  function DecodeFilter(data: Bytes, names: seq<Bytes>): Option<seq<Field>>
    decreases |data|
  {
    if |data| == 0 || |names| == 0 then Some([])
    else
      match DecodeField(data)
      case None => None
      case Some((f, n)) =>
        if f.name == names[0] then Prepend(f, DecodeFilter(data[n..], names[1..]))
        else DecodeFilter(data[n..], names)
  }

  /** A length below 2^32 survives the `uint32_t` prefix unchanged. */
  lemma ShortLengthPrefix(s: Bytes)
    requires |s| < LEN_BOUND
    ensures LengthPrefix(s) == U32Bytes(|s|)
  {
  }

  /** Where the four parts of an encoded field sit in the bytes. */
  lemma EncodedFieldParts(f: Field, rest: Bytes)
    requires |f.name| < LEN_BOUND && |f.value| < LEN_BOUND
    ensures var data := EncodeField(f) + rest;
            var nl := |f.name|;
            var vl := |f.value|;
            && |data| >= 8 + nl + vl
            && data[..4] == U32Bytes(nl)
            && data[4 .. 4 + nl] == f.name
            && data[4 + nl .. 8 + nl] == U32Bytes(vl)
            && data[8 + nl .. 8 + nl + vl] == f.value
  {
    ShortLengthPrefix(f.name);
    ShortLengthPrefix(f.value);
    SliceParts(LengthPrefix(f.name), f.name, LengthPrefix(f.value), f.value, rest);
  }

  /** The parts of a five-part concatenation, recovered by slicing. */
  lemma SliceParts<T>(a: seq<T>, b: seq<T>, c: seq<T>, d: seq<T>, e: seq<T>)
    ensures var s := a + b + c + d + e;
            var i, j, k := |a|, |a| + |b|, |a| + |b| + |c|;
            && s[..i] == a && s[i..j] == b && s[j..k] == c && s[k..k + |d|] == d
  {
  }

  lemma DecodeFieldOfEncoded(f: Field, rest: Bytes)
    requires |f.name| < LEN_BOUND && |f.value| < LEN_BOUND
    ensures DecodeField(EncodeField(f) + rest) == Some((f, |EncodeField(f)|))
  {
    EncodedFieldParts(f, rest);
    U32RoundTrip(|f.name|);
    U32RoundTrip(|f.value|);
  }

  /** Decoding inverts encoding for every row whose names and values are
      shorter than 2^32 bytes. */
  lemma {:induction false} DecodeEncode(row: seq<Field>)
    requires Fits(row)
    ensures Decode(Encode(row)) == Some(row)
  {
    if |row| > 0 {
      var f := row[0];
      var data := Encode(row);
      DecodeFieldOfEncoded(f, Encode(row[1..]));
      assert data[|EncodeField(f)|..] == Encode(row[1..]);
      assert Fits(row[1..]) by {
        forall i | 0 <= i < |row[1..]|
          ensures |row[1..][i].name| < LEN_BOUND && |row[1..][i].value| < LEN_BOUND
        {
          assert row[1..][i] == row[i + 1];
        }
      }
      DecodeEncode(row[1..]);
      assert [f] + row[1..] == row;
    }
  }

  // ---------------------------------------------------------------------
  // Filtering, stated on decoded rows

  /** A greedy in-order match of `names` against the fields of `row`. */
  function Greedy(row: seq<Field>, names: seq<Bytes>): (r: seq<Field>)
    ensures |r| <= |names| && |r| <= |row|
  {
    if |names| == 0 || |row| == 0 then []
    else if row[0].name == names[0] then [row[0]] + Greedy(row[1..], names[1..])
    else Greedy(row[1..], names)
  }

  /** `a` occurs in `b` as a (not necessarily contiguous) subsequence. */
  predicate IsSubseq<T(==)>(a: seq<T>, b: seq<T>)
    decreases |b|
  {
    |a| == 0 || (|b| > 0 && ((a[0] == b[0] && IsSubseq(a[1..], b[1..])) || IsSubseq(a, b[1..])))
  }

  /** When the row decodes, filtering its encoding is the greedy match on
      the decoded row. */
  lemma {:induction false} DecodeFilterIsGreedy(data: Bytes, names: seq<Bytes>)
    requires Decode(data).Some?
    ensures DecodeFilter(data, names) == Some(Greedy(Decode(data).value, names))
    decreases |data|
  {
    if |data| > 0 && |names| > 0 {
      var (f, n) := DecodeField(data).value;
      DecodeFilterIsGreedy(data[n..], names[1..]);
      DecodeFilterIsGreedy(data[n..], names);
    }
  }

  /** The names of the kept fields are a prefix of the wanted names. */
  lemma {:induction false} GreedyNamesArePrefix(row: seq<Field>, names: seq<Bytes>)
    ensures Names(Greedy(row, names)) == names[..|Greedy(row, names)|]
  {
    if |names| > 0 && |row| > 0 {
      if row[0].name == names[0] {
        GreedyNamesArePrefix(row[1..], names[1..]);
      } else {
        GreedyNamesArePrefix(row[1..], names);
      }
    }
  }

  /** The kept fields are fields of the row, in the row's order. */
  lemma {:induction false} GreedyIsSubsequence(row: seq<Field>, names: seq<Bytes>)
    ensures IsSubseq(Greedy(row, names), row)
  {
    if |names| > 0 && |row| > 0 {
      if row[0].name == names[0] {
        GreedyIsSubsequence(row[1..], names[1..]);
        assert ([row[0]] + Greedy(row[1..], names[1..]))[1..] == Greedy(row[1..], names[1..]);
      } else {
        GreedyIsSubsequence(row[1..], names);
      }
    }
  }

  lemma {:induction false} SubseqDropHead<T>(a: seq<T>, b: seq<T>)
    requires |a| > 0 && IsSubseq(a, b)
    ensures IsSubseq(a[1..], b)
    decreases |b|
  {
    if a[0] == b[0] && IsSubseq(a[1..], b[1..]) {
      SubseqSkip(a[1..], b);
    } else {
      SubseqDropHead(a, b[1..]);
      SubseqSkip(a[1..], b);
    }
  }

  lemma SubseqSkip<T>(a: seq<T>, b: seq<T>)
    requires |b| > 0 && IsSubseq(a, b[1..])
    ensures IsSubseq(a, b)
  {
  }

  /** Every wanted name is matched exactly when the wanted names occur in
      order among the row's names: the greedy match is complete. */
  lemma {:induction false} GreedyCompleteIffSubseq(row: seq<Field>, names: seq<Bytes>)
    ensures |Greedy(row, names)| == |names| <==> IsSubseq(names, Names(row))
  {
    if |names| > 0 && |row| > 0 {
      assert Names(row)[1..] == Names(row[1..]);
      if row[0].name == names[0] {
        GreedyCompleteIffSubseq(row[1..], names[1..]);
        if IsSubseq(names, Names(row)) && !IsSubseq(names[1..], Names(row)[1..]) {
          SubseqDropHead(names, Names(row)[1..]);
        }
      } else {
        GreedyCompleteIffSubseq(row[1..], names);
      }
    }
  }

  // ---------------------------------------------------------------------
  // The backend's loops

  /** Appends the encoding of `values` to `data`, one field at a time. */
  lemma SerializeStep(data: Bytes, values: seq<Field>, i: nat)
    requires i < |values|
    ensures data + Encode(values[..i]) + LengthPrefix(values[i].name) + values[i].name
              + LengthPrefix(values[i].value) + values[i].value
            == data + Encode(values[..i + 1])
  {
    var f := values[i];
    assert values[..i + 1] == values[..i] + [f];
    EncodeAppend(values[..i], [f]);
    assert Encode([f]) == EncodeField(f) + Encode([]);
  }

  method SerializeRow(values: seq<Field>, data: Bytes) returns (out: Bytes)
    ensures out == data + Encode(values)
  {
    out := data;
    var i := 0;
    while i < |values|
      invariant 0 <= i <= |values|
      invariant out == data + Encode(values[..i])
    {
      var f := values[i];
      SerializeStep(data, values, i);
      out := out + LengthPrefix(f.name) + f.name + LengthPrefix(f.value) + f.value;
      i := i + 1;
    }
    assert values[..|values|] == values;
  }

  /** `prefix` followed by a decoded row; `None` when decoding failed. */
  function Append(prefix: seq<Field>, rest: Option<seq<Field>>): (r: Option<seq<Field>>)
    ensures r.Some? <==> rest.Some?
    ensures r.Some? ==> r.value == prefix + rest.value
  {
    match rest
    case None => None
    case Some(fs) => Some(prefix + fs)
  }

  lemma AppendPrepend(prefix: seq<Field>, f: Field, rest: Option<seq<Field>>)
    ensures Append(prefix, Prepend(f, rest)) == Append(prefix + [f], rest)
  {
    if rest.Some? {
      assert prefix + ([f] + rest.value) == prefix + [f] + rest.value;
    }
  }

  /** Decoding the field at offset `p` leaves the rest of the row to be
      decoded from offset `p + n`. */
  lemma DecodeAt(data: Bytes, p: nat, f: Field, n: nat)
    requires p < |data| && DecodeField(data[p..]) == Some((f, n))
    ensures p + n <= |data|
    ensures Decode(data[p..]) == Prepend(f, Decode(data[p + n..]))
  {
    assert data[p..][n..] == data[p + n..];
  }

  /** Filtering from the field at offset `p`: a field whose name is the
      next wanted one is kept and the wanted names move on; any other
      field is skipped. */
  lemma DecodeFilterAt(data: Bytes, p: nat, names: seq<Bytes>, k: nat, f: Field, n: nat, acc: seq<Field>)
    requires p < |data| && k < |names| && DecodeField(data[p..]) == Some((f, n))
    ensures p + n <= |data|
    ensures f.name == names[k] ==>
              Append(acc, DecodeFilter(data[p..], names[k..]))
              == Append(acc + [f], DecodeFilter(data[p + n..], names[k + 1..]))
    ensures f.name != names[k] ==>
              Append(acc, DecodeFilter(data[p..], names[k..]))
              == Append(acc, DecodeFilter(data[p + n..], names[k..]))
  {
    assert data[p..][n..] == data[p + n..];
    assert names[k..][1..] == names[k + 1..];
    if f.name == names[k] {
      assert DecodeFilter(data[p..], names[k..]) == Prepend(f, DecodeFilter(data[p + n..], names[k + 1..]));
      AppendPrepend(acc, f, DecodeFilter(data[p + n..], names[k + 1..]));
    }
  }

  lemma DecodeFilterFails(data: Bytes, p: nat, names: seq<Bytes>, k: nat)
    requires p < |data| && k < |names| && DecodeField(data[p..]).None?
    ensures DecodeFilter(data[p..], names[k..]) == None
  {
  }

  lemma DecodeFilterDone(data: Bytes, p: nat, names: seq<Bytes>, k: nat)
    requires p <= |data| && k <= |names| && (p == |data| || k == |names|)
    ensures DecodeFilter(data[p..], names[k..]) == Some([])
  {
  }

  /** Appends every field held in `data` to `values`; `None` where the
      backend would read past the end of `data`. */
  method DeserializeRow(values: seq<Field>, data: Bytes) returns (r: Option<seq<Field>>)
    ensures r == Append(values, Decode(data))
  {
    var acc := values;
    var p := 0;
    assert data[0..] == data;
    while p != |data|
      invariant 0 <= p <= |data|
      invariant Append(values, Decode(data)) == Append(acc, Decode(data[p..]))
      decreases |data| - p
    {
      match DecodeField(data[p..]) {
        case None =>
          return None;
        case Some((f, n)) =>
          DecodeAt(data, p, f, n);
          AppendPrepend(acc, f, Decode(data[p + n..]));
          acc := acc + [f];
          p := p + n;
      }
    }
    assert Decode(data[p..]) == Some([]);
    assert acc + [] == acc;
    return Some(acc);
  }

  /** One step of the filtering loop: reads the field at offset `p`, keeps
      it when its name is the next wanted one, and answers the new offset,
      the new count of matched names and the new output; `None` where the
      backend would read past the end of `data`. */
  method FilterStep(data: Bytes, p: nat, fields: seq<Bytes>, k: nat, acc: seq<Field>)
    returns (r: Option<(nat, nat, seq<Field>)>)
    requires p < |data| && k < |fields|
    ensures r.None? ==> DecodeFilter(data[p..], fields[k..]) == None
    ensures r.Some? ==> p < r.value.0 <= |data| && k <= r.value.1 <= |fields|
    ensures r.Some? ==> Append(acc, DecodeFilter(data[p..], fields[k..]))
                        == Append(r.value.2, DecodeFilter(data[r.value.0..], fields[r.value.1..]))
  {
    var d := DecodeField(data[p..]);
    if d.None? {
      DecodeFilterFails(data, p, fields, k);
      return None;
    }
    var f := d.value.0;
    var n := d.value.1;
    DecodeFilterAt(data, p, fields, k, f, n, acc);
    var k' := k;
    var acc' := acc;
    if f.name == fields[k] {
      k', acc' := k + 1, acc + [f];
    }
    assert Append(acc, DecodeFilter(data[p..], fields[k..])) == Append(acc', DecodeFilter(data[p + n..], fields[k'..]));
    return Some((p + n, k', acc'));
  }

  /** Appends to `values` the fields of `data` that match `fields` in
      order, stopping once every wanted name has been matched. */
  method DeserializeRowFilter(values: seq<Field>, data: Bytes, fields: seq<Bytes>)
    returns (r: Option<seq<Field>>)
    ensures r == Append(values, DecodeFilter(data, fields))
  {
    var acc := values;
    var p := 0;
    var k := 0;
    assert data[0..] == data && fields[0..] == fields;
    while p != |data| && k != |fields|
      invariant 0 <= p <= |data| && 0 <= k <= |fields|
      invariant Append(values, DecodeFilter(data, fields)) == Append(acc, DecodeFilter(data[p..], fields[k..]))
      decreases |data| - p
    {
      var step := FilterStep(data, p, fields, k, acc);
      if step.None? {
        return None;
      }
      p, k, acc := step.value.0, step.value.1, step.value.2;
    }
    DecodeFilterDone(data, p, fields, k);
    assert acc + [] == acc;
    return Some(acc);
  }
}

=== FILE: wrappers.dfy ===
/** Failure-carrying datatypes used throughout the model: an `Option` for
    values that may be absent (a decoder that meets a malformed row) and a
    `Result` for operations whose C++ counterpart throws. */
module Wrappers {

  datatype Option<+T> = None | Some(value: T) {
    function GetOr(default: T): T {
      match this
      case Some(v) => v
      case None => default
    }
  }

  datatype Result<+R, +E> = Success(value: R) | Failure(error: E) {
    predicate IsFailure() {
      Failure?
    }

    function PropagateFailure<U>(): Result<U, E>
      requires Failure?
    {
      Failure(error)
    }

    function Extract(): R
      requires Success?
    {
      value
    }

    function ToOption(): Option<R> {
      match this
      case Success(v) => Some(v)
      case Failure(_) => None
    }
  }
}

=== FILE: ycsbc.dfy ===
/** The driver: the command-line parser, the choice of operations shown in
    status lines, and the arithmetic `main` does around its workers — the
    per-worker operation budgets, the settings each worker is started
    with, and the total reported at the end. Threads, timers and the
    status printer are not modelled; each worker's result is an input. */
module Ycsbc {
  import opened Wrappers
  import opened Db
  import opened CxxString
  import opened Ops
  import opened CoreWorkload
  import opened Client

  // ---------------------------------------------------------------------
  // Operation names accepted after `-s`

  /** The names `-s` accepts: the nineteen named operations. */
  const OPERATION_TYPES: set<string> := {
    "INSERT", "READ", "UPDATE", "SCAN", "READMODIFYWRITE", "DELETE",
    "INSERT-PASSED", "READ-PASSED", "UPDATE-PASSED", "SCAN-PASSED",
    "READMODIFYWRITE-PASSED", "DELETE-PASSED",
    "INSERT-FAILED", "READ-FAILED", "UPDATE-FAILED", "SCAN-FAILED",
    "READMODIFYWRITE-FAILED", "DELETE-FAILED",
    "ALL"
  }

  /** The position of an accepted name in the display-name table. */
  lemma IndexOfType(s: string) returns (i: nat)
    requires s in OPERATION_TYPES
    ensures i < |OPERATION_STRING| && OPERATION_STRING[i] == s
  {
    if s == "INSERT" {
      i := 0;
    } else if s == "READ" {
      i := 1;
    } else if s == "UPDATE" {
      i := 2;
    } else if s == "SCAN" {
      i := 3;
    } else if s == "READMODIFYWRITE" {
      i := 4;
    } else if s == "DELETE" {
      i := 5;
    } else if s == "INSERT-PASSED" {
      i := 6;
    } else if s == "READ-PASSED" {
      i := 7;
    } else if s == "UPDATE-PASSED" {
      i := 8;
    } else if s == "SCAN-PASSED" {
      i := 9;
    } else if s == "READMODIFYWRITE-PASSED" {
      i := 10;
    } else if s == "DELETE-PASSED" {
      i := 11;
    } else if s == "INSERT-FAILED" {
      i := 12;
    } else if s == "READ-FAILED" {
      i := 13;
    } else if s == "UPDATE-FAILED" {
      i := 14;
    } else if s == "SCAN-FAILED" {
      i := 15;
    } else if s == "READMODIFYWRITE-FAILED" {
      i := 16;
    } else if s == "DELETE-FAILED" {
      i := 17;
    } else {
      i := 18;
    }
  }

  /** Each accepted name reads back as the operation whose display name
      it is. */
  lemma OperationTypesAreNames(s: string)
    requires s in OPERATION_TYPES
    ensures Named(s).Some? && Named(s).value != MaxOpType && Name(Named(s).value) == s
  {
    var i := IndexOfType(s);
    var op := OperationAt(i).value;
    OrdinalLayout(op, i);
    NameRoundTrip(op);
  }

  /** Each display name is accepted, so the accepted names are exactly
      the display names. */
  lemma NamesAreOperationTypes(op: Operation)
    requires op != MaxOpType
    ensures Name(op) in OPERATION_TYPES
  {
    match op
    case Base(k) =>
      match k {
        case INSERT => case READ => case UPDATE => case SCAN => case READMODIFYWRITE => case DELETE =>
      }
    case Passed(k) =>
      match k {
        case INSERT => case READ => case UPDATE => case SCAN => case READMODIFYWRITE => case DELETE =>
      }
    case Failed(k) =>
      match k {
        case INSERT => case READ => case UPDATE => case SCAN => case READMODIFYWRITE => case DELETE =>
      }
    case All =>
  }

  /** No display name starts with `-`: each begins with its kind's first
      letter. */
  lemma NameIsNotOption(op: Operation)
    requires op != MaxOpType
    ensures !StartsWith(Name(op), "-")
  {
    var first: char;
    match op {
      case Base(k) =>
      case Passed(k) => PassedSuffix(k);
      case Failed(k) => FailedSuffix(k);
      case All =>
    }
    if op == All {
      first := 'A';
    } else {
      match op.kind {
        case INSERT => first := 'I';
        case READ => first := 'R';
        case UPDATE => first := 'U';
        case SCAN => first := 'S';
        case READMODIFYWRITE => first := 'R';
        case DELETE => first := 'D';
      }
    }
    assert Name(op)[0] == first;
  }

  /** No accepted name starts with `-`, so an operation list after `-s`
      ends exactly at the next option. */
  lemma OperationTypeIsNotOption(s: string)
    requires s in OPERATION_TYPES
    ensures !StartsWith(s, "-")
  {
    OperationTypesAreNames(s);
    NameIsNotOption(Named(s).value);
  }

  // ---------------------------------------------------------------------
  // Command line

  /** Why the parser printed the usage text. Every one of these ends the
      process with exit status 0. */
  datatype UsageReason =
    | MissingValue(option: string)
    | MissingEquals(argument: string)
    | UnknownOperation(name: string)
    | UnknownOption(option: string)
    | NoOptions
    | TrailingArguments

  /** The reasons an individual option can fail for. */
  predicate OptionError(e: UsageReason)
  {
    !(e.NoOptions? || e.TrailingArguments?)
  }

  const THREADS_OPTION := "-threads"
  const DB_OPTION := "-db"
  const PROPERTY_OPTION := "-p"
  const STATUS_OPTION := "-s"

  /** The status key an operation name turns on. */
  function StatusKey(name: string): string
  {
    "status." + name
  }

  /** The status keys of a list of names. */
  function StatusKeys(names: seq<string>): set<string>
  {
    set n | n in names :: StatusKey(n)
  }

  /** Turns on `status.<name>` for each name, in order: the new keys read
      "true" and every other property is kept. */
  function SetStatuses(props: Props, names: seq<string>): (r: Props)
    ensures r.Keys == props.Keys + StatusKeys(names)
    ensures forall k :: k in StatusKeys(names) ==> r[k] == "true"
    ensures forall k :: k in props && k !in StatusKeys(names) ==> r[k] == props[k]
    decreases |names|
  {
    if |names| == 0 then props
    else
      assert names == [names[0]] + names[1..];
      assert StatusKeys(names) == {StatusKey(names[0])} + StatusKeys(names[1..]);
      SetStatuses(props[StatusKey(names[0]) := "true"], names[1..])
  }

  /** The operation list after `-s`: the arguments up to the next one that
      starts with `-`, each of which must be an accepted name. */
  function StatusList(argv: seq<Text>, i: nat, props: Props): (r: Result<(nat, Props), UsageReason>)
    requires i <= |argv|
    ensures r.Success? ==> i <= r.value.0 <= |argv|
    ensures r.Success? ==> r.value.0 == |argv| || StartsWith(argv[r.value.0], "-")
    ensures r.Success? ==> forall j :: i <= j < r.value.0 ==> argv[j] in OPERATION_TYPES && !StartsWith(argv[j], "-")
    ensures r.Success? ==> r.value.1 == SetStatuses(props, argv[i..r.value.0])
    ensures r.Failure? ==> exists j :: i <= j < |argv| && r.error == UnknownOperation(argv[j])
                                       && argv[j] !in OPERATION_TYPES && !StartsWith(argv[j], "-")
    decreases |argv| - i
  {
    if i == |argv| || StartsWith(argv[i], "-") then Success((i, props))
    else if argv[i] in OPERATION_TYPES then
      var r := StatusList(argv, i + 1, props[StatusKey(argv[i]) := "true"]);
      if r.Success? then
        assert argv[i..r.value.0][1..] == argv[i + 1..r.value.0];
        r
      else r
    else Failure(UnknownOperation(argv[i]))
  }

  /** One option at `argv[i]`; answers the index after it and the updated
      properties. */
  function OptionStep(argv: seq<Text>, i: nat, props: Props, trim: string -> string)
    : (r: Result<(nat, Props), UsageReason>)
    requires i < |argv|
    ensures r.Success? ==> i < r.value.0 <= |argv|
    ensures r.Failure? ==> OptionError(r.error)
    ensures r == Failure(UnknownOption(argv[i])) <==>
              argv[i] !in {THREADS_OPTION, DB_OPTION, PROPERTY_OPTION, STATUS_OPTION}
    ensures argv[i] in {THREADS_OPTION, DB_OPTION, PROPERTY_OPTION} ==>
              (r == Failure(MissingValue(argv[i])) <==> i + 1 == |argv|)
    ensures argv[i] == THREADS_OPTION && i + 1 < |argv| ==>
              r == Success((i + 2, props["threadcount" := argv[i + 1]]))
    ensures argv[i] == DB_OPTION && i + 1 < |argv| ==>
              r == Success((i + 2, props["dbname" := argv[i + 1]]))
    ensures argv[i] == PROPERTY_OPTION && i + 1 < |argv| ==>
              (r == Failure(MissingEquals(argv[i + 1])) <==> '=' !in argv[i + 1])
    ensures argv[i] == PROPERTY_OPTION && r.Success? ==>
              var eq := Find(argv[i + 1], '=');
              eq < |argv[i + 1]| && '=' !in argv[i + 1][..eq]
              && r.value == (i + 2, props[trim(argv[i + 1][..eq]) := trim(argv[i + 1][eq + 1..])])
    ensures argv[i] == STATUS_OPTION ==> r == StatusList(argv, i + 1, props["status" := "true"])
  {
    var arg := argv[i];
    if arg == THREADS_OPTION || arg == DB_OPTION || arg == PROPERTY_OPTION then
      if i + 1 >= |argv| then Failure(MissingValue(arg))
      else if arg == THREADS_OPTION then Success((i + 2, SetProperty(props, "threadcount", argv[i + 1])))
      else if arg == DB_OPTION then Success((i + 2, SetProperty(props, "dbname", argv[i + 1])))
      else
        var prop := argv[i + 1];
        var eq := Find(prop, '=');
        if eq == NPOS then Failure(MissingEquals(prop))
        else Success((i + 2, SetProperty(props, trim(Substr(prop, eq)), trim(prop[eq + 1..]))))
    else if arg == STATUS_OPTION then StatusList(argv, i + 1, SetProperty(props, "status", "true"))
    else Failure(UnknownOption(arg))
  }

  /** The option loop: runs while the next argument starts with `-`. */
  function ParseOptions(argv: seq<Text>, i: nat, props: Props, trim: string -> string)
    : (r: Result<(nat, Props), UsageReason>)
    requires i <= |argv|
    ensures r.Success? ==> i <= r.value.0 <= |argv|
    ensures r.Failure? ==> OptionError(r.error)
    ensures r.Success? ==> r.value.0 == |argv| || !StartsWith(argv[r.value.0], "-")
    ensures r.Success? && r.value.0 == i ==> r.value.1 == props
    ensures r.Success? ==> (r.value.0 == i <==> i == |argv| || !StartsWith(argv[i], "-"))
    decreases |argv| - i
  {
    if i < |argv| && StartsWith(argv[i], "-") then
      var next :- OptionStep(argv, i, props, trim);
      ParseOptions(argv, next.0, next.1, trim)
    else Success((i, props))
  }

  /** `ParseCommandLine`: the properties the arguments set, starting from
      an empty property bag, or the reason the usage text was printed. */
  function ParseCommandLine(argv: seq<Text>, trim: string -> string): (r: Result<Props, UsageReason>)
    requires |argv| >= 1
    ensures r == Failure(NoOptions) <==> |argv| == 1 || !StartsWith(argv[1], "-")
    ensures r == Failure(TrailingArguments) <==>
              ParseOptions(argv, 1, map[], trim).Success?
              && 1 < ParseOptions(argv, 1, map[], trim).value.0 < |argv|
    ensures r.Success? <==>
              ParseOptions(argv, 1, map[], trim).Success?
              && 1 < ParseOptions(argv, 1, map[], trim).value.0 == |argv|
    ensures r.Success? ==> r.value == ParseOptions(argv, 1, map[], trim).value.1
  {
    var (j, props) :- ParseOptions(argv, 1, map[], trim);
    if j == 1 then Failure(NoOptions)
    else if j != |argv| then Failure(TrailingArguments)
    else Success(props)
  }

  // ---------------------------------------------------------------------
  // Command lines built from options

  /** One command-line option as a user writes it. */
  datatype CliOption =
    | Threads(count: Text)
    | DbName(name: Text)
    | Property(key: Text, value: Text)
    | Status(names: seq<Text>)

  /** The options that can be written down unambiguously: a property key
      holds no `=`, and `-s` lists only accepted names. */
  predicate Renderable(o: CliOption)
  {
    match o
    case Property(k, v) => '=' !in k && |k| + 1 + |v| < NPOS
    case Status(ns) => forall j :: 0 <= j < |ns| ==> ns[j] in OPERATION_TYPES
    case _ => true
  }

  function Render(o: CliOption): (args: seq<Text>)
    requires Renderable(o)
    ensures |args| > 0 && StartsWith(args[0], "-")
  {
    match o
    case Threads(n) => [THREADS_OPTION, n]
    case DbName(d) => [DB_OPTION, d]
    case Property(k, v) => [PROPERTY_OPTION, k + "=" + v]
    case Status(ns) => [STATUS_OPTION] + ns
  }

  function RenderAll(os: seq<CliOption>): (args: seq<Text>)
    requires forall j :: 0 <= j < |os| ==> Renderable(os[j])
    ensures |args| == 0 <==> |os| == 0
    ensures |os| > 0 ==> StartsWith(args[0], "-")
  {
    if |os| == 0 then [] else Render(os[0]) + RenderAll(os[1..])
  }

  /** What one option does to the properties, read off the usage text:
      `-threads` and `-db` set `threadcount` and `dbname`, `-p k=v` sets
      the trimmed key to the trimmed value, `-s` sets `status` and one
      `status.<name>` per listed name. */
  function Apply(o: CliOption, props: Props, trim: string -> string): Props
  {
    match o
    case Threads(n) => props["threadcount" := n]
    case DbName(d) => props["dbname" := d]
    case Property(k, v) => props[trim(k) := trim(v)]
    case Status(ns) => SetStatuses(props["status" := "true"], ns)
  }

  function ApplyAll(os: seq<CliOption>, props: Props, trim: string -> string): Props
  {
    if |os| == 0 then props else ApplyAll(os[1..], Apply(os[0], props, trim), trim)
  }

  /** In `k=v` with no `=` in `k`, the first `=` is the one after `k`. */
  lemma FindSeparator(k: string, v: string)
    requires '=' !in k && |k| + 1 + |v| < NPOS
    ensures Find(k + "=" + v, '=') == |k|
  {
    var s := k + "=" + v;
    assert s[|k|] == '=';
  }

  lemma {:induction false} StatusListRender(argv: seq<Text>, i: nat, end: nat, ns: seq<Text>, props: Props)
    requires end == i + |ns| && end <= |argv| && argv[i..end] == ns
    requires forall j :: 0 <= j < |ns| ==> ns[j] in OPERATION_TYPES
    requires end == |argv| || StartsWith(argv[end], "-")
    ensures StatusList(argv, i, props) == Success((end, SetStatuses(props, ns)))
    decreases |ns|
  {
    if |ns| > 0 {
      assert argv[i] == ns[0];
      OperationTypeIsNotOption(ns[0]);
      assert argv[i + 1..end] == ns[1..];
      var next := props[StatusKey(ns[0]) := "true"];
      StatusListRender(argv, i + 1, end, ns[1..], next);
    }
  }

  lemma OptionStepRender(argv: seq<Text>, i: nat, end: nat, o: CliOption, props: Props, trim: string -> string)
    requires Renderable(o)
    requires end == i + |Render(o)| && end <= |argv| && argv[i..end] == Render(o)
    requires end == |argv| || StartsWith(argv[end], "-")
    ensures OptionStep(argv, i, props, trim) == Success((end, Apply(o, props, trim)))
  {
    assert argv[i] == Render(o)[0];
    match o
    case Threads(n) =>
      assert argv[i + 1] == n;
    case DbName(d) =>
      assert argv[i + 1] == d;
    case Property(k, v) =>
      assert argv[i + 1] == k + "=" + v;
      FindSeparator(k, v);
      assert (k + "=" + v)[..|k|] == k;
      assert (k + "=" + v)[|k| + 1..] == v;
    case Status(ns) =>
      assert argv[i + 1..end] == ns;
      StatusListRender(argv, i + 1, end, ns, props["status" := "true"]);
  }

  /** The option loop takes one step at an argument that starts with `-`. */
  lemma ParseOptionsStep(argv: seq<Text>, i: nat, props: Props, trim: string -> string)
    requires i < |argv| && StartsWith(argv[i], "-")
    requires OptionStep(argv, i, props, trim).Success?
    ensures ParseOptions(argv, i, props, trim)
            == ParseOptions(argv, OptionStep(argv, i, props, trim).value.0, OptionStep(argv, i, props, trim).value.1, trim)
  {
  }

  /** The arguments of a rendered option list: the first option's, then
      the rest's, which start with an option again. */
  lemma RenderAllParts(argv: seq<Text>, i: nat, os: seq<CliOption>)
    requires forall j :: 0 <= j < |os| ==> Renderable(os[j])
    requires |os| > 0 && i <= |argv| && argv[i..] == RenderAll(os)
    ensures i + |Render(os[0])| <= |argv|
    ensures argv[i..i + |Render(os[0])|] == Render(os[0])
    ensures argv[i + |Render(os[0])|..] == RenderAll(os[1..])
    ensures StartsWith(argv[i], "-")
    ensures i + |Render(os[0])| == |argv| || StartsWith(argv[i + |Render(os[0])|], "-")
  {
    SuffixParts(argv, i, Render(os[0]), RenderAll(os[1..]));
  }

  lemma SuffixParts<T>(s: seq<T>, i: nat, a: seq<T>, b: seq<T>)
    requires i <= |s| && s[i..] == a + b
    ensures i + |a| <= |s| && s[i..i + |a|] == a && s[i + |a|..] == b
    ensures |a| > 0 ==> s[i] == a[0]
    ensures |b| > 0 ==> s[i + |a|] == b[0]
  {
    assert s[i..i + |a|] == s[i..][..|a|];
    assert s[i + |a|..] == s[i..][|a|..];
  }

  lemma {:induction false} ParseOptionsRender(argv: seq<Text>, i: nat, os: seq<CliOption>, props: Props,
                                              trim: string -> string)
    requires forall j :: 0 <= j < |os| ==> Renderable(os[j])
    requires i <= |argv| && argv[i..] == RenderAll(os)
    ensures ParseOptions(argv, i, props, trim) == Success((|argv|, ApplyAll(os, props, trim)))
    decreases |os|
  {
    if |os| > 0 {
      RenderAllParts(argv, i, os);
      var j := i + |Render(os[0])|;
      OptionStepRender(argv, i, j, os[0], props, trim);
      ParseOptionsStep(argv, i, props, trim);
      ParseOptionsRender(argv, j, os[1..], Apply(os[0], props, trim), trim);
    }
  }

  /** A command line written from options parses back to the properties
      those options set; one with no options is refused. */
  lemma CommandLineRoundTrip(command: Text, os: seq<CliOption>, trim: string -> string)
    requires forall j :: 0 <= j < |os| ==> Renderable(os[j])
    ensures ParseCommandLine([command] + RenderAll(os), trim)
            == if |os| == 0 then Failure(NoOptions) else Success(ApplyAll(os, map[], trim))
  {
    var argv := [command] + RenderAll(os);
    assert argv[1..] == RenderAll(os);
    ParseOptionsRender(argv, 1, os, map[], trim);
  }

  // ---------------------------------------------------------------------
  // Operations shown in status lines

  lemma OrdinalInjective(a: Operation, b: Operation)
    requires Ordinal(a) == Ordinal(b)
    ensures a == b
  {
    OrdinalLayout(a, 0);
    OrdinalLayout(b, 0);
  }

  /** The operations whose `status.<NAME>` property is present, in enum
      order and each once. */
  method OperationsForStatus(props: Props) returns (ops: seq<Operation>)
    ensures forall j, k :: 0 <= j < k < |ops| ==> Ordinal(ops[j]) < Ordinal(ops[k])
    ensures forall op :: op in ops <==> op != MaxOpType && StatusKey(Name(op)) in props
  {
    ops := [];
    var i := 0;
    while i < MAX_OP_TYPE
      invariant 0 <= i <= MAX_OP_TYPE
      invariant forall j, k :: 0 <= j < k < |ops| ==> Ordinal(ops[j]) < Ordinal(ops[k])
      invariant forall j :: 0 <= j < |ops| ==> Ordinal(ops[j]) < i
      invariant forall op :: op in ops <==> Ordinal(op) < i && op != MaxOpType && StatusKey(Name(op)) in props
    {
      var op := OperationAt(i).value;
      OrdinalLayout(op, i);
      forall other | Ordinal(other) == i
        ensures other == op
      {
        OrdinalInjective(other, op);
      }
      if StatusKey(OPERATION_STRING[i]) in props {
        ops := ops + [op];
      }
      i := i + 1;
    }
  }

  // ---------------------------------------------------------------------
  // Worker budgets and settings

  /** C++ `/` on signed integers: the quotient is truncated toward zero. */
  function TruncQuot(a: int, n: int): int
    requires n > 0
  {
    if a >= 0 then a / n else -((-a) / n)
  }

  /** C++ `%` on signed integers: the remainder takes the dividend's sign,
      and what is left is a multiple of the divisor. */
  function TruncRem(a: int, n: int): (r: int)
    requires n > 0
    ensures -n < r < n
    ensures a >= 0 ==> r >= 0
    ensures a < 0 ==> r <= 0
    ensures a == n * TruncQuot(a, n) + r
  {
    if a >= 0 then a % n
    else
      var q := (-a) / n;
      assert -a == n * q + (-a) % n;
      assert n * -q == -(n * q);
      -((-a) % n)
  }

  /** What `main` hands one transaction worker. */
  datatype WorkerSettings = WorkerSettings(ops: int, maxExecutionTime: int, sleepAfterLoad: int)

  /** A per-worker property: `<key>.<i>`, falling back to `<key>`, falling
      back to `fallback`. */
  function PerWorker(props: Props, key: string, i: nat, fallback: string): string
  {
    GetProperty(props, key + "." + ToString(i), GetProperty(props, key, fallback))
  }

  /** Worker `i` of `n`: its own operation count, one more for the first
      `total % n` workers, and its time limit and start delay. */
  function WorkerAt(props: Props, i: nat, total: int, n: int): (r: Result<WorkerSettings, NumberError>)
    requires i < n
    ensures r.Success? <==> Stol(PerWorker(props, OPERATION_COUNT_PROPERTY, i, "0")).Success?
                            && Stoi(PerWorker(props, "maxexecutiontime", i, "0")).Success?
                            && Stoi(PerWorker(props, "sleepafterload", i, "0")).Success?
    ensures r.Success? ==>
              var base := Stol(PerWorker(props, OPERATION_COUNT_PROPERTY, i, "0")).value;
              (r.value.ops == base + 1 <==> i < TruncRem(total, n))
              && (r.value.ops == base <==> i >= TruncRem(total, n))
    ensures r.Success? ==>
              r.value.maxExecutionTime == Stoi(PerWorker(props, "maxexecutiontime", i, "0")).value
              && r.value.sleepAfterLoad == Stoi(PerWorker(props, "sleepafterload", i, "0")).value
  {
    var base :- Stol(PerWorker(props, OPERATION_COUNT_PROPERTY, i, "0"));
    var maxTime :- Stoi(PerWorker(props, "maxexecutiontime", i, "0"));
    var sleep :- Stoi(PerWorker(props, "sleepafterload", i, "0"));
    Success(WorkerSettings(base + (if i < TruncRem(total, n) then 1 else 0), maxTime, sleep))
  }

  /** Workers `i` up to `n`, in launch order; the first setting that fails
      to parse ends the run. */
  function Workers(props: Props, i: nat, total: int, n: int): (r: Result<seq<WorkerSettings>, NumberError>)
    ensures r.Success? ==> |r.value| == if i < n then n - i else 0
    ensures r.Success? ==> forall j :: i <= j < n ==> WorkerAt(props, j, total, n) == Success(r.value[j - i])
    ensures r.Failure? ==> exists j :: i <= j < n && WorkerAt(props, j, total, n).Failure?
    decreases n - i
  {
    if i >= n then Success([])
    else
      var w :- WorkerAt(props, i, total, n);
      var rest :- Workers(props, i + 1, total, n);
      var ws := [w] + rest;
      assert forall j :: 1 <= j < |ws| ==> ws[j] == rest[j - 1];
      Success(ws)
  }

  /** Each worker's settings in launch order, as `main` reads them. */
  function Attempts(props: Props, total: int, n: int): (r: seq<Result<WorkerSettings, NumberError>>)
    ensures |r| == if n > 0 then n else 0
    ensures forall j :: 0 <= j < |r| ==> r[j] == WorkerAt(props, j, total, n)
  {
    seq(if n > 0 then n else 0, (j: int) requires 0 <= j < n => WorkerAt(props, j, total, n))
  }

  /** What a launch loop starts: the values before the first failure, and
      that failure's error, which ends the loop. */
  function Started<T, E>(rs: seq<Result<T, E>>): (r: (seq<T>, Option<E>))
    ensures |r.0| <= |rs|
    ensures forall j :: 0 <= j < |r.0| ==> rs[j] == Success(r.0[j])
    ensures r.1.None? <==> |r.0| == |rs|
    ensures r.1.Some? ==> rs[|r.0|] == Failure(r.1.value)
  {
    if |rs| == 0 then ([], None)
    else if rs[0].Failure? then ([], Some(rs[0].error))
    else
      var rest := Started(rs[1..]);
      var vs := [rs[0].value] + rest.0;
      assert forall j :: 1 <= j < |vs| ==> vs[j] == rest.0[j - 1];
      (vs, rest.1)
  }

  /** `main` launches each worker before it reads the next one's settings:
      the launch runs to the end exactly when every worker's settings
      parse, and then it starts the workers `Workers` lists. */
  lemma LaunchCompletes(props: Props, total: int, n: int)
    ensures Started(Attempts(props, total, n)).1.None? <==> Workers(props, 0, total, n).Success?
    ensures Started(Attempts(props, total, n)).1.None? ==>
              Started(Attempts(props, total, n)).0 == Workers(props, 0, total, n).value
  {
    var rs := Attempts(props, total, n);
    var st := Started(rs);
    var ws := Workers(props, 0, total, n);
    if ws.Success? {
      forall j | 0 <= j < |rs|
        ensures rs[j].Success? && rs[j].value == ws.value[j]
      {
        assert rs[j] == WorkerAt(props, j, total, n);
      }
      assert st.1.None?;
      assert st.0 == ws.value;
    } else {
      var j :| 0 <= j < n && WorkerAt(props, j, total, n).Failure?;
      assert rs[j].Failure?;
    }
  }

  function SumOps(ws: seq<WorkerSettings>): int
  {
    if |ws| == 0 then 0 else ws[0].ops + SumOps(ws[1..])
  }

  /** `k` copies of `x` added up. */
  function Scaled(k: nat, x: int): int
  {
    if k == 0 then 0 else x + Scaled(k - 1, x)
  }

  lemma {:induction false} ScaledIsProduct(k: nat, x: int)
    ensures Scaled(k, x) == k * x
  {
    if k > 0 {
      ScaledIsProduct(k - 1, x);
      MulFacts(k - 1, x);
    }
  }

  lemma MulFacts(a: int, b: int)
    ensures (a + 1) * b == b + a * b
  {
  }

  /** The first of the workers from `i` on, and the rest. */
  lemma WorkersCons(props: Props, i: nat, total: int, n: int)
    requires i < n && Workers(props, i, total, n).Success?
    ensures WorkerAt(props, i, total, n).Success? && Workers(props, i + 1, total, n).Success?
    ensures Workers(props, i, total, n).value
            == [WorkerAt(props, i, total, n).value] + Workers(props, i + 1, total, n).value
  {
  }

  /** A worker with no override of its own gets the total, plus one if
      it is among the first `total % n`. */
  lemma WorkerWithoutOverride(props: Props, i: nat, total: int, n: int)
    requires i < n && OPERATION_COUNT_PROPERTY + "." + ToString(i) !in props
    requires Stol(GetProperty(props, OPERATION_COUNT_PROPERTY, "0")) == Success(total)
    requires WorkerAt(props, i, total, n).Success?
    ensures WorkerAt(props, i, total, n).value.ops == total + (if i < TruncRem(total, n) then 1 else 0)
  {
    assert PerWorker(props, OPERATION_COUNT_PROPERTY, i, "0") == GetProperty(props, OPERATION_COUNT_PROPERTY, "0");
  }

  /** With no per-worker override every worker's count falls back to the
      total, and the first `total % n` get one more. */
  lemma {:induction false} BudgetsFrom(props: Props, i: nat, total: int, n: int, rem: int)
    requires 0 < n && i <= n && rem == TruncRem(total, n)
    requires forall j :: 0 <= j < n ==> OPERATION_COUNT_PROPERTY + "." + ToString(j) !in props
    requires Stol(GetProperty(props, OPERATION_COUNT_PROPERTY, "0")) == Success(total)
    requires Workers(props, i, total, n).Success?
    ensures SumOps(Workers(props, i, total, n).value)
            == Scaled(n - i, total) + (if rem > i then rem - i else 0)
    decreases n - i
  {
    if i < n {
      WorkersCons(props, i, total, n);
      WorkerWithoutOverride(props, i, total, n);
      BudgetsFrom(props, i + 1, total, n, rem);
      var ws := Workers(props, i, total, n).value;
      var rest := Workers(props, i + 1, total, n).value;
      assert ws[1..] == rest;
      assert SumOps(ws) == ws[0].ops + SumOps(rest);
      BudgetStep(ws[0].ops, SumOps(rest), i, n, total, rem);
    }
  }

  /** One worker's count plus the sum of the workers after it. */
  lemma BudgetStep(first: int, later: int, i: nat, n: int, total: int, rem: int)
    requires i < n
    requires first == total + (if i < rem then 1 else 0)
    requires later == Scaled(n - (i + 1), total) + (if rem > i + 1 then rem - (i + 1) else 0)
    ensures first + later == Scaled(n - i, total) + (if rem > i then rem - i else 0)
  {
    assert Scaled(n - i, total) == total + Scaled(n - i - 1, total);
  }

  /** The budgets are not a split of the total: with no overrides, a
      positive total and more than one worker, they add up to more than
      the total (each worker gets all of it). */
  lemma BudgetsExceedTotal(props: Props, total: int, n: int)
    requires n > 1 && total > 0
    requires forall j :: 0 <= j < n ==> OPERATION_COUNT_PROPERTY + "." + ToString(j) !in props
    requires Stol(GetProperty(props, OPERATION_COUNT_PROPERTY, "0")) == Success(total)
    requires Workers(props, 0, total, n).Success?
    ensures SumOps(Workers(props, 0, total, n).value) == n * total + TruncRem(total, n)
    ensures SumOps(Workers(props, 0, total, n).value) > total
  {
    BudgetsFrom(props, 0, total, n, TruncRem(total, n));
    ScaledIsProduct(n, total);
    ScaledIsProduct(n - 1, total);
    assert Scaled(n, total) == total + Scaled(n - 1, total);
    assert (n - 1) * total >= total by {
      MulFacts(n - 2, total);
      ScaledIsProduct(n - 2, total);
      assert Scaled(n - 1, total) == total + Scaled(n - 2, total);
    }
  }

  // ---------------------------------------------------------------------
  // The run

  /** The sum the run reports: the workers' returned counts. A worker that
      exits or lets an exception escape ends the process, and nothing is
      reported. */
  function RunTotal(outcomes: seq<Outcome>): (r: Option<int>)
    ensures r.Some? <==> forall j :: 0 <= j < |outcomes| ==> outcomes[j].Returned?
  {
    if |outcomes| == 0 then Some(0)
    else match outcomes[0]
      case Returned(ops) =>
        (match RunTotal(outcomes[1..])
         case Some(rest) => Some(ops + rest)
         case None => None)
      case _ => None
  }

  function SumBudgets(ws: seq<WorkerSettings>): nat
  {
    if |ws| == 0 then 0 else Budget(ws[0].ops) + SumBudgets(ws[1..])
  }

  /** Workers that each return at most their budget (as a worker does)
      report a total between zero and the sum of the budgets. */
  lemma {:induction false} RunTotalBounded(outcomes: seq<Outcome>, ws: seq<WorkerSettings>)
    requires |outcomes| == |ws|
    requires forall j :: 0 <= j < |ws| ==> outcomes[j].Returned? && 0 <= outcomes[j].ops <= Budget(ws[j].ops)
    ensures RunTotal(outcomes).Some?
    ensures 0 <= RunTotal(outcomes).value <= SumBudgets(ws)
  {
    if |ws| > 0 {
      RunTotalBounded(outcomes[1..], ws[1..]);
    }
  }

  /** What `main` does with its settings: exit, launch no worker, launch
      one worker per thread, or launch the workers before the first whose
      settings fail to parse, after which that exception ends the process. */
  datatype Plan =
    | Exit(code: int)
    | NoWorkers(threads: int)
    | Transaction(threads: int, workers: seq<WorkerSettings>)
    | Aborted(threads: int, launched: seq<WorkerSettings>, error: NumberError)

  predicate DoLoad(props: Props)
  {
    GetProperty(props, "doload", "false") == "true"
  }

  predicate DoTransaction(props: Props)
  {
    GetProperty(props, "dotransaction", "false") == "true"
  }

  /** The run's plan: exit with status 1 when there is nothing to do;
      otherwise parse the thread count and the status interval, and
      launch workers only for the transaction phase, each before the next
      one's settings are parsed. The total is read
      with `props[...]` and no default, so a transaction run without an
      operation count fails; the model reports that as the parse failure
      of an empty text. */
  function RunPlan(props: Props): (r: Result<Plan, NumberError>)
    ensures !DoLoad(props) && !DoTransaction(props) <==> r == Success(Exit(1))
    ensures r.Success? && r.value.NoWorkers? <==>
              DoLoad(props) && !DoTransaction(props)
              && Stoi(GetProperty(props, "threadcount", "1")).Success?
              && Stoi(GetProperty(props, "status.interval", "10")).Success?
    ensures r.Success? && r.value.Transaction? ==>
              DoTransaction(props)
              && Stoi(GetProperty(props, "threadcount", "1")) == Success(r.value.threads)
              && Stol(GetProperty(props, OPERATION_COUNT_PROPERTY, "")).Success?
              && Workers(props, 0, Stol(GetProperty(props, OPERATION_COUNT_PROPERTY, "")).value, r.value.threads)
                 == Success(r.value.workers)
    ensures DoTransaction(props) && OPERATION_COUNT_PROPERTY !in props ==> r.Failure?
    ensures DoTransaction(props)
            && Stoi(GetProperty(props, "threadcount", "1")).Success?
            && Stoi(GetProperty(props, "status.interval", "10")).Success?
            && Stol(GetProperty(props, OPERATION_COUNT_PROPERTY, "")).Success? ==>
              var threads := Stoi(GetProperty(props, "threadcount", "1")).value;
              var workers := Workers(props, 0, Stol(GetProperty(props, OPERATION_COUNT_PROPERTY, "")).value, threads);
              r.Success?
              && (r.value.Transaction? <==> workers.Success?)
              && (workers.Success? ==> r.value == Transaction(threads, workers.value))
              && (workers.Failure? ==>
                    var launch := Started(Attempts(props, Stol(GetProperty(props, OPERATION_COUNT_PROPERTY, "")).value, threads));
                    r.value == Aborted(threads, launch.0, launch.1.value))
    ensures r.Success? && r.value.Transaction? ==>
              |r.value.workers| == if r.value.threads > 0 then r.value.threads else 0
  {
    if !DoLoad(props) && !DoTransaction(props) then Success(Exit(1))
    else
      var threads :- Stoi(GetProperty(props, "threadcount", "1"));
      var _ :- Stoi(GetProperty(props, "status.interval", "10"));
      if !DoTransaction(props) then Success(NoWorkers(threads))
      else
        var total :- Stol(GetProperty(props, OPERATION_COUNT_PROPERTY, ""));
        LaunchCompletes(props, total, threads);
        var (launched, error) := Started(Attempts(props, total, threads));
        if error.Some? then Success(Aborted(threads, launched, error.value))
        else Success(Transaction(threads, launched))
  }

  /** A run that stops part-way has launched, in order, every worker before
      the first one whose settings fail to parse, and that worker's parse
      error is the exception that ends the process. */
  lemma RunAborts(props: Props)
    ensures RunPlan(props).Success? && RunPlan(props).value.Aborted? ==>
              var p := RunPlan(props).value;
              DoTransaction(props)
              && Stoi(GetProperty(props, "threadcount", "1")) == Success(p.threads)
              && Stol(GetProperty(props, OPERATION_COUNT_PROPERTY, "")).Success?
              && var total := Stol(GetProperty(props, OPERATION_COUNT_PROPERTY, "")).value;
                 |p.launched| < p.threads
                 && (forall j :: 0 <= j < |p.launched| ==> WorkerAt(props, j, total, p.threads) == Success(p.launched[j]))
                 && WorkerAt(props, |p.launched|, total, p.threads) == Failure(p.error)
  {
    var r := RunPlan(props);
    if r.Success? && r.value.Aborted? {
      var total := Stol(GetProperty(props, OPERATION_COUNT_PROPERTY, "")).value;
      var rs := Attempts(props, total, r.value.threads);
      assert Started(rs) == (r.value.launched, Some(r.value.error));
    }
  }
}
